=== FILE: README.md ===
# Site widgets: the canvas simulations and the page rules

This project is a Dafny model of the behaviour layer of a marketing site
(`assets/scripts/main.js`). It covers two groups of code:

- **The three canvas widgets.**
  - *SparkRunner*: one agent chases the nearest of six targets, leaving a 40-node fading trail and a sparkle on every capture.
  - *OrbitGame*: a hero flies itself to the nearest of four rings in auto mode, or follows the keys or a clicked point in manual mode. Its speed ramps every eight seconds and it leaves a 60-node trail.
  - *SystemFlowSim*: a packet travels the cycle Signal → Design → Build → Ops over four fixed nodes.
- **The rules behind four page features:**
  - the carousel index wrap;
  - the wizard step clamp and week estimate;
  - the planner's recipe choice;
  - the budget label of `formatCurrency`.

The widgets are classes whose methods update their fields in place. Their collections are `seq` fields that the methods reassign. A reference to a target or ring is its index into that sequence. Every change to the sequence is followed, as in the code, by a fresh choice of target.

Pure rules are functions. Loops stay loops, each proved against a function that specifies it:
- the nearest-target scan;
- the trail's evict-and-fade passes;
- the backward splice loops over sparkles and rings;
- the planner's scan.

Modules:
- `Common`: points, squared distance, the bounded step, and `Math.random` as an arbitrary fraction.
- `Trail`: the trail.
- `TargetSelector`: the nearest-first scan.
- `SparkRunnerSim`, `OrbitGameSim`, `SystemFlow`: the three widgets.
- `Carousel`, `Wizard`, `Currency`, `Planner`: the page rules.

Distances are compared as squares. `hypot < 10` becomes `DistSq < 100`, because hypot is the non-negative root.

The host-computed step fraction is a parameter of the update methods:
- `ratio` is `min(speed * delta / distance, 1)`;
- `keyStep` is `speed * delta / hypot(h, v)` for a key vector.

With those inputs, the branches of the update code are modelled. How the inputs are computed is not: see "## Left out".

The packet starts on (Signal, Design). The code at `main.js:1405-1414` puts it on (Ops, Signal) after three crossings; `SystemFlow.ThreeHopsFromStart` states this.

## Model

| member | source | states |
|---|---|---|
| `Common.MoveToward` | assets/scripts/main.js:734-736 | going the fraction 0 of the way stays put; going the whole way lands on the destination |
| `Common.MoveTowardNoFarther` | assets/scripts/main.js:734-736 | a step with ratio in [0, 1] scales the squared distance to the destination by (1 - ratio)², so the agent never ends farther away and never overshoots |
| `Common.FractionInSpan` | assets/scripts/main.js:688-693 | `lo + Math.random() * span` lies in the half-open span, whatever the span's sign |
| `Trail.Fade` | assets/scripts/main.js:745-747 | fading keeps the position; the life never goes below 0, never rises for a non-negative amount, and stays at most 1 |
| `Trail.EvictOldest` | assets/scripts/main.js:742-744 | the shift loop leaves exactly the newest `cap` nodes |
| `Trail.FadeEach` | assets/scripts/main.js:745-747 | the fade loop fades every node once, in place and in order |
| `Trail.Record` | assets/scripts/main.js:741-748 | push, evict from the front and fade: the trail never exceeds its capacity, grows by one until full, ends with the agent's position, and every older node is the node already there faded once more; lives stay in [0, 1] |
| `TargetSelector.ChooseNearest` | assets/scripts/main.js:695-708 | none exactly when there is no candidate; otherwise a nearest candidate with no earlier one as near (the strict `<` scan keeps the first of equals) |
| `TargetSelector.NearestFirstUnique` | assets/scripts/main.js:1193-1209 | the tie rule determines the choice: at most one index is nearest-first |
| `SparkRunnerSim.Aged` | assets/scripts/main.js:751-752 | ageing keeps the position; for a non-negative delta the life falls and the radius grows, the growth being 24/0.9 times the life lost |
| `SparkRunnerSim.AgeSparkles` | assets/scripts/main.js:749-756 | the sparkles kept after ageing all have positive life, there are no more of them, and a zero delta keeps every live sparkle; `AgeSparklesComplete` gives the other direction |
| `SparkRunnerSim.AgeSparklesComplete` | assets/scripts/main.js:749-756 | every sparkle still alive after ageing survives as its aged self, and every survivor is some sparkle aged |
| `SparkRunnerSim.FadeSparkles` | assets/scripts/main.js:749-756 | the backward splice loop leaves exactly the aged, still-living sparkles in their order |
| `SparkRunnerSim.SparkRunner.constructor` | assets/scripts/main.js:632-656 | agent centred, score 0, six targets in the populate area, the nearest one chased |
| `SparkRunnerSim.SparkRunner.Resize` | assets/scripts/main.js:658-676 | new size; an agent at the origin is centred; existing targets are re-seeded and the nearest chased |
| `SparkRunnerSim.SparkRunner.RandomPoint` | assets/scripts/main.js:688-693 | each coordinate is padding plus a fraction of max(10, extent - 2·padding) |
| `SparkRunnerSim.SparkRunner.PopulateTargets` | assets/scripts/main.js:678-686 | exactly six targets, all in the padded area, and the nearest-first one chosen |
| `SparkRunnerSim.SparkRunner.ChooseNextTarget` | assets/scripts/main.js:695-708 | with no targets the choice is left unchanged; otherwise the nearest-first target |
| `SparkRunnerSim.SparkRunner.CaptureTarget` | assets/scripts/main.js:759-774 | +7 score; a sparkle of radius 6 and life 1 at the captured spot; the captured target replaced at the same index, the others untouched; the nearest chosen again |
| `SparkRunnerSim.SparkRunner.Update` | assets/scripts/main.js:720-757 | zero delta changes nothing; a capture below distance 10 adds 7 and keeps the agent still; a capture re-spawns the target in the respawn area and leaves the other five untouched; otherwise a step toward the target above 0.1; the trail records the agent (at most 40 nodes, lives in [0, 1]); sparkles age |
| `SparkRunnerSim.CaptureOnContact` | assets/scripts/main.js:727-731 | an agent standing on its target scores on the next non-zero tick and the six targets remain |
| `OrbitGameSim.SpeedFor` | assets/scripts/main.js:1170 | the mode's entry of the speed table, or 100 for a zero entry: both entries (95 and 130) are non-zero, so the fallback is never used; each lies in [95, 180] and manual is faster than auto |
| `OrbitGameSim.KeyActive` | assets/scripts/main.js:1029-1031 | 1 exactly when the key is held, otherwise 0 |
| `OrbitGameSim.ParseMode` | assets/scripts/main.js:1161-1164 | only "auto" and "manual" name a mode |
| `OrbitGameSim.Horizontal` | assets/scripts/main.js:1059-1062 | right + D - (left + A) lies in [-2, 2] |
| `OrbitGameSim.Vertical` | assets/scripts/main.js:1063-1066 | down + S - (up + W) lies in [-2, 2] |
| `OrbitGameSim.OpposingKeysCancel` | assets/scripts/main.js:1059-1068 | holding all four arrows gives a zero key vector although keys are held |
| `OrbitGameSim.ClampToField` | assets/scripts/main.js:1111-1115 | a moved hero ends at least 18 from the left and top, within 18 of the right and bottom when the surface is wide enough, and is untouched when already inside |
| `OrbitGameSim.Kept` | assets/scripts/main.js:1130-1137 | the rings the hero does not reach: no more than before, each at distance 20 or more, each one of the old rings; `KeptComplete` gives the other direction |
| `OrbitGameSim.KeptComplete` | assets/scripts/main.js:1130-1137 | a ring of the input is kept exactly when it lies at distance 20 or more from the hero |
| `OrbitGameSim.KeptAppend` | assets/scripts/main.js:1130-1137 | filtering a joined list is joining the filtered parts, so the kept rings keep their order |
| `OrbitGameSim.KeptAll` | assets/scripts/main.js:1130-1137 | when no ring is in reach the ring list is kept as it is |
| `OrbitGameSim.OrbitGame.constructor` | assets/scripts/main.js:890-927 | hero centred, auto mode at speed 95, timer 0, no input, four rings in the generate area, the nearest targeted |
| `OrbitGameSim.OrbitGame.Resize` | assets/scripts/main.js:953-971 | new size; a hero at the origin is centred; the rings regenerated and the nearest targeted |
| `OrbitGameSim.OrbitGame.RandomRing` | assets/scripts/main.js:1033-1040 | an uncollected ring at padding plus a fraction of extent - 2·padding on each axis |
| `OrbitGameSim.OrbitGame.GenerateRings` | assets/scripts/main.js:973-981 | exactly four uncollected rings in the padded area and the nearest-first one targeted |
| `OrbitGameSim.OrbitGame.ChooseNextTarget` | assets/scripts/main.js:1193-1209 | no rings gives no target; otherwise the nearest-first ring |
| `OrbitGameSim.OrbitGame.SetMode` | assets/scripts/main.js:1161-1180 | an unknown or current mode changes nothing; a switch sets the mode's speed and restarts the timer; auto drops keys and pointer and targets the nearest ring; manual drops the target |
| `OrbitGameSim.OrbitGame.HandleKeyDown` | assets/scripts/main.js:983-1002 | a control key forces manual mode, is held and cancels the pointer; other keys change nothing |
| `OrbitGameSim.OrbitGame.HandleKeyUp` | assets/scripts/main.js:1004-1008 | the released key is no longer held, nothing else changes |
| `OrbitGameSim.OrbitGame.HandlePointer` | assets/scripts/main.js:1010-1022 | manual mode with the clicked point as destination; held keys kept |
| `OrbitGameSim.OrbitGame.HandleBlur` | assets/scripts/main.js:1024-1027 | no held keys and no pointer destination |
| `OrbitGameSim.OrbitGame.Steer` | assets/scripts/main.js:1057-1109 | the movement of update, by mode: in manual the target dropped and the key or pointer outcome, in auto the kept or nearest target and the step toward it |
| `OrbitGameSim.OrbitGame.SteerManual` | assets/scripts/main.js:1057-1090 | target dropped; a key vector moves the hero by keyStep per unit and cancels the pointer; otherwise a pointer farther than 1 is pursued and a nearer one forgotten |
| `OrbitGameSim.OrbitGame.SteerAuto` | assets/scripts/main.js:1091-1109 | a target is kept or, if missing, the nearest chosen; the hero steps toward it while farther than 0.1, counting as moved only for a positive ratio |
| `OrbitGameSim.OrbitGame.Ramp` | assets/scripts/main.js:1125-1128 | past 8 seconds the timer restarts and the speed becomes min(speed + 8, 180); the speed never decreases nor passes 180 |
| `OrbitGameSim.OrbitGame.CollectRing` | assets/scripts/main.js:1140-1152 | +15; the ring spliced out, the others kept in order, a fresh ring pushed at the end (still four), the nearest targeted |
| `OrbitGameSim.OrbitGame.CollectAt` | assets/scripts/main.js:1130-1137 | one pass of the ring loop on a ring within 20: the ring leaves, a fresh ring in the respawn area joins the end, +15, and the nearest ring is targeted |
| `OrbitGameSim.OrbitGame.CollectNearby` | assets/scripts/main.js:1130-1137 | every ring within 20 is collected: the others stay in front in order, one fresh ring per capture follows, the score rises by 15 per capture, and nothing changes when none is reached |
| `OrbitGameSim.OrbitGame.RecordHero` | assets/scripts/main.js:1117-1123 | the trail gains the hero's position, keeps its newest 60 nodes and fades each by delta * 0.9 |
| `OrbitGameSim.OrbitGame.Advance` | assets/scripts/main.js:1053-1128 | the hero steered by mode to a point, which is clamped into the 18-unit margins exactly when the hero moved; target and pointer as steering leaves them; trail of at most 60 ending at the hero; the difficulty ramp |
| `OrbitGameSim.OrbitGame.Update` | assets/scripts/main.js:1053-1138 | mode and keys unchanged; the hero steered and clamped as in `Advance`; the pointer as steering leaves it; the rings within 20 of the hero's new position collected at +15 each, the rest kept in order, always four rings; the target is the one steering aimed at when nothing was collected and otherwise the nearest ring |
| `OrbitGameSim.IdleManualHeroStays` | assets/scripts/main.js:1056-1090 | a manual hero with no key held and no pointer destination does not move, and the trail ends at it |
| `OrbitGameSim.TargetUnderHeroScores` | assets/scripts/main.js:1091-1137 | an auto hero standing on its target ring stays put and collects that ring in the same tick: the score rises by at least 15 |
| `OrbitGameSim.KeptDropsReached` | assets/scripts/main.js:1130-1137 | a ring within 20 of the hero is never kept, so the ring loop collects at least one ring |
| `OrbitGameSim.OrbitGame.Frame` | assets/scripts/main.js:1042-1051 | the elapsed time feeds the ramp before update runs; hero, pointer, target, trail, rings and score after the frame are those `Update` states |
| `OrbitGameSim.ManualThenAuto` | assets/scripts/main.js:1161-1180 | switching to manual and back to auto leaves no keys and no pointer, and a ring targeted |
| `SystemFlow.Hop` | assets/scripts/main.js:1409-1413 | the destination becomes the source, the next node in the cycle the destination, progress 0 |
| `SystemFlow.Step` | assets/scripts/main.js:1405-1414 | the packet stays on a cycle link with progress below 1; zero delta is a no-op; reaching 1 is exactly one hop; for non-negative delta the progress stays in [0, 1) |
| `SystemFlow.RouteIsLink` | assets/scripts/main.js:1348-1355 | every route a packet can be on is one of the drawn links |
| `SystemFlow.HopsFromStart` | assets/scripts/main.js:1356-1414 | from (0, 1) the k-th crossing leaves the packet between nodes k mod 4 and k + 1 mod 4 |
| `SystemFlow.ThreeHopsFromStart` | assets/scripts/main.js:1356-1414 | three crossings from the start end on the Ops → Signal link (3, 0) |
| `SystemFlow.SystemFlowSim.constructor` | assets/scripts/main.js:1356-1357 | the packet starts at Signal bound for Design with no progress |
| `SystemFlow.SystemFlowSim.Update` | assets/scripts/main.js:1405-1414 | the packet takes one step, the clock advances by delta, and the route invariant is kept for non-negative delta |
| `Carousel.JsRem` | assets/scripts/main.js:120 | JavaScript's truncating `%`: the remainder takes the dividend's sign |
| `Carousel.Wrap` | assets/scripts/main.js:118-121 | `(index + n) % n` is a slide for every index down to -n; one before the first is the last, one past the last is the first |
| `Carousel.Forward` | assets/scripts/main.js:133-135 | pressing next from a slide always reaches a slide |
| `Carousel.NextThenPrevious` | assets/scripts/main.js:133-135 | next then previous returns to the starting slide |
| `Carousel.ForwardSteps` | assets/scripts/main.js:133-135 | for k ≤ n presses, next advances k slides, wrapping past the last once |
| `Carousel.ForwardCompose` | assets/scripts/main.js:133-135 | a presses of next followed by b presses land where a + b presses do |
| `Carousel.ForwardPeriodic` | assets/scripts/main.js:133-135 | for any k, k + n presses land where k presses do, so with `ForwardSteps` every number of presses is covered |
| `Carousel.FullTurn` | assets/scripts/main.js:145-150 | as many presses as slides come back to the start |
| `Carousel.Slider.constructor` | assets/scripts/main.js:84-95 | a carousel with at least one slide opens on the first |
| `Carousel.Slider.SetActive` | assets/scripts/main.js:118-131 | no slides, no change; otherwise the wrapped index, a valid slide for index ≥ -n |
| `Carousel.Slider.GoNext` | assets/scripts/main.js:133-135 | moves by step cyclically and stays on a slide for the ±1 steps the buttons and timer use |
| `Wizard.Clamp` | assets/scripts/main.js:279-281 | the value forced into [lo, hi], unchanged when inside; when the bounds cross the upper one wins |
| `Wizard.StepTracker.constructor` | assets/scripts/main.js:388 | the wizard opens on its first step |
| `Wizard.StepTracker.SetStep` | assets/scripts/main.js:329-331 | the step is the index clamped to the existing steps, -1 when there are none |
| `Wizard.StepTracker.Next` | assets/scripts/main.js:366-370 | one step on, never past the last |
| `Wizard.StepTracker.Previous` | assets/scripts/main.js:372-376 | one step back, never before the first |
| `Wizard.ServiceWeeks` | assets/scripts/main.js:254-262 | each service's range, the default (6, 12) for any other option value; every range starts at week 3 or later and ends by week 24 |
| `Wizard.OrDefault` | assets/scripts/main.js:285-286 | an empty answer reads as its fallback |
| `Wizard.Adjusted` | assets/scripts/main.js:292-309 | the stage and priority shifts move the window by at most 3 weeks at the start, and widen it by one week only for a concept stage |
| `Wizard.Bounded` | assets/scripts/main.js:311-312 | 2 ≤ first ≤ 32 and first < last ≤ 40, and a window already inside is unchanged |
| `Wizard.EstimateWeeks` | assets/scripts/main.js:283-312 | every estimate satisfies 2 ≤ first ≤ 32 and first < last ≤ 40 |
| `Wizard.ClampOnlyRaises` | assets/scripts/main.js:311-312 | no answers reach the upper bounds, so the clamp only raises a start before week 2 or a collapsed end |
| `Wizard.ShortestEstimate` | assets/scripts/main.js:254-312 | strategy, growth, accelerated shifts to weeks 0–3 and is reported as weeks 2–3 |
| `Wizard.DefaultEstimate` | assets/scripts/main.js:283-312 | with nothing chosen the estimate is weeks 7–14 |
| `Currency.Decimal` | assets/scripts/main.js:276 | the decimal digits of a whole number, no leading zero |
| `Currency.DecimalRoundTrip` | assets/scripts/main.js:276 | reading the digits back gives the number |
| `Currency.RoundThousands` | assets/scripts/main.js:274 | Math.round(v / 1000) is within half a thousand of v, exact on whole thousands |
| `Currency.FormatCurrency` | assets/scripts/main.js:272-277 | "$" first; a trailing "k" exactly from 1000 up |
| `Currency.FormatThenParse` | assets/scripts/main.js:272-277 | the label reads back as the amount below 1000 and as the rounded thousands from 1000 up |
| `Currency.WholeThousandsReadBack` | assets/scripts/main.js:314 | the whole-thousand amounts the estimate formats read back exactly |
| `Planner.MatchCount` | assets/scripts/main.js:479 | at most the recipe's match count; zero exactly when none of its matches is selected |
| `Planner.FindRecipe` | assets/scripts/main.js:474-486 | the default exactly when no recipe matches; otherwise the first recipe with the strictly greatest score |
| `Planner.FirstBestUnique` | assets/scripts/main.js:474-486 | the tie rule determines the pick |
| `Planner.StrategyPicksLaunchFast` | assets/scripts/main.js:402-486 | "strategy" alone ties two recipes and the first listed wins |
| `Planner.BothLaunchChallengesPickLaunchFast` | assets/scripts/main.js:402-486 | "fast-launch" with "strategy" picks the launch sprint |

## Left out

- Drawing is not modelled: backgrounds, stars, ring pulses, sparkle rendering, headings (`Math.atan2`), trail opacity and the scoreboard and mode-label updates are all output-only.
- Movement geometry is abstract. `Math.hypot` step fractions are the parameters `ratio` and `keyStep`; the node circle placement with `cos`/`sin` in the flow widget's resize is not modelled.
- Animation scheduling is abstract. `requestAnimationFrame`, timestamps and the first-frame zero delta are left out; `OrbitGame.Frame` takes the elapsed time as a parameter.
- `Math.random` is an arbitrary fraction in [0, 1).
- Browser events become method calls with their decoded arguments. `handlePointer` takes the click already translated into canvas coordinates; `handleModeButton` only forwards a button's mode to `setMode`.
- Device pixel ratio, canvas resizing and the flow widget's `clientWidth || 600` sizing are not modelled.
- Values are exact reals and integers: floating-point rounding, `NaN` and `Infinity` are not modelled.
- OrbitGame's `collected` flag is set on a ring just before it is spliced out, so no remaining ring ever shows it; rings stay uncollected in the model.
- OrbitGame starts with mode `null` before `setMode('auto')`; the model constructs it directly in auto mode, with the same resulting state.
- Step sizes are not derived from the speeds. `ratio` and `keyStep` are arbitrary reals, so they may be negative or above 1, which the host's `Math.min(step / distance, 1)` (main.js:734, 1082, 1102) and a non-negative delta rule out. SparkRunner's speed 120 (main.js:640) and OrbitGame's ramped `speed` therefore do not feed the movement; the ramp is modelled only as the speed value it sets.
- `SystemFlow.SystemFlowSim.Update`: a negative delta can push progress below 0. The route invariant is promised only for a non-negative delta.
- `Wizard.ServiceWeeks`: the service is one of the form's fixed option values. Names inherited from the object prototype (`toString`, `constructor`, `__proto__`) make the code throw at main.js:287-288; the model gives them the default range instead.
- The wizard's cost range, budget labels, squad and note texts, and the timeline text are not modelled; only the week arithmetic and `formatCurrency` are. `Math.round` is the identity on the whole weeks the estimate handles.
- The carousel's dots, autoplay timer and ARIA attributes, and the planner's recipe texts and label rendering, are DOM output only.
- The discovery popup, navigation, scroll reveal and form submission are not part of this model.

=== FILE: carousel.dfy ===
/** The testimonial carousel: one active slide among a fixed, non-empty set,
    moved by the dots, the previous/next buttons and the autoplay timer. */
module Carousel {

  /** JavaScript's `a % n` for a positive divisor: the remainder takes the sign of
      the dividend (it truncates toward zero), unlike Dafny's Euclidean `%`. */
  function JsRem(a: int, n: int): (r: int)
    requires n > 0
    ensures a >= 0 ==> 0 <= r < n && r == a % n
    ensures a < 0 ==> -n < r <= 0
  {
    if a >= 0 then a % n else -((-a) % n)
  }

  lemma ModBelow(x: int, n: int)
    requires 0 <= x < n
    ensures x % n == x
  {
  }

  lemma ModOnce(x: int, n: int)
    requires 0 < n <= x < 2 * n
    ensures x % n == x - n
  {
    ModBelow(x - n, n);
    assert (x - n) % n == x % n;
  }

  lemma WrapBelow(index: int, count: int)
    requires -count <= index < 0
    ensures JsRem(index + count, count) == index + count
  {
    ModBelow(index + count, count);
  }

  lemma WrapInside(index: int, count: int)
    requires 0 <= index < count
    ensures JsRem(index + count, count) == index
  {
    ModOnce(index + count, count);
  }

  lemma WrapAbove(index: int, count: int)
    requires 0 < count <= index < 2 * count
    ensures JsRem(index + count, count) == index - count
  {
    ModOnce(index, count);
    assert (index + count) % count == index % count;
  }

  lemma WrapCases(index: int, count: int)
    requires count > 0
    ensures -count <= index < 0 ==> JsRem(index + count, count) == index + count
    ensures 0 <= index < count ==> JsRem(index + count, count) == index
    ensures count <= index < 2 * count ==> JsRem(index + count, count) == index - count
  {
    if -count <= index < 0 {
      WrapBelow(index, count);
    } else if 0 <= index < count {
      WrapInside(index, count);
    } else if count <= index < 2 * count {
      WrapAbove(index, count);
    }
  }

  /** The slide index `setActive(index)` settles on: `(index + count) % count`.  For
      any index down to -count the result is a slide; the buttons and the timer only
      ever pass one past either end, which wraps round to the other end. */
  function Wrap(index: int, count: int): (r: int)
    requires count > 0
    ensures index >= -count ==> 0 <= r < count
    ensures -count <= index < 0 ==> r == index + count
    ensures 0 <= index < count ==> r == index
    ensures count <= index < 2 * count ==> r == index - count
  {
    WrapCases(index, count);
    JsRem(index + count, count)
  }

  /** The slide reached after k presses of "next" from slide i. */
  function Forward(i: int, count: int, k: nat): (r: int)
    requires count > 0 && 0 <= i < count
    ensures 0 <= r < count
    decreases k
  {
    if k == 0 then i else Wrap(Forward(i, count, k - 1) + 1, count)
  }

  /** Stepping forward and then back lands on the slide one started from. */
  lemma {:induction false} NextThenPrevious(i: int, count: int)
    requires count > 0 && 0 <= i < count
    ensures Wrap(Wrap(i + 1, count) - 1, count) == i
  {
  }

  /** Pressing "next" k times (k at most the slide count) advances k slides,
      wrapping past the last one; `count` presses come back to the start. */
  lemma {:induction false} ForwardSteps(i: int, count: int, k: nat)
    requires count > 0 && 0 <= i < count && k <= count
    ensures Forward(i, count, k) == if i + k < count then i + k else i + k - count
    decreases k
  {
    if k > 0 {
      ForwardSteps(i, count, k - 1);
    }
  }

  /** Pressing "next" a times and then b times is pressing it a + b times. */
  lemma {:induction false} ForwardCompose(i: int, count: int, a: nat, b: nat)
    requires count > 0 && 0 <= i < count
    ensures Forward(i, count, a + b) == Forward(Forward(i, count, a), count, b)
    decreases b
  {
    if b > 0 {
      ForwardCompose(i, count, a, b - 1);
    }
  }

  /** Any number of presses: after `count` presses the carousel is back where it
      started, so k presses land where k - count presses do. */
  lemma ForwardPeriodic(i: int, count: int, k: nat)
    requires count > 0 && 0 <= i < count
    ensures Forward(i, count, k + count as nat) == Forward(i, count, k)
  {
    ForwardCompose(i, count, count as nat, k);
    FullTurn(i, count);
    assert k + count as nat == count as nat + k;
  }

  lemma FullTurn(i: int, count: int)
    requires count > 0 && 0 <= i < count
    ensures Forward(i, count, count as nat) == i
  {
    ForwardSteps(i, count, count as nat);
  }

  class Slider {
    const slideCount: int
    var activeIndex: int

    ghost predicate Valid()
      reads this
    {
      slideCount > 0 && 0 <= activeIndex < slideCount
    }

    /** A carousel is only set up with at least one slide; it opens on the first. */
    constructor (count: int)
      requires count > 0
      ensures Valid() && slideCount == count && activeIndex == 0
    {
      slideCount := count;
      activeIndex := 0;
    }

    /** setActive(index): without slides nothing happens; otherwise the active slide
        becomes `(index + count) % count`, in range whenever index >= -count. */
    method SetActive(index: int)
      modifies this`activeIndex
      ensures slideCount <= 0 ==> activeIndex == old(activeIndex)
      ensures slideCount > 0 ==> activeIndex == Wrap(index, slideCount)
      ensures slideCount > 0 && index >= -slideCount ==> Valid()
    {
      if slideCount <= 0 {
        return;
      }
      activeIndex := JsRem(index + slideCount, slideCount);
    }

    /** goNext(step): move by `step` slides, cyclically; the buttons and the autoplay
        timer pass 1 or -1, which always stays in range. */
    method GoNext(step: int)
      requires Valid()
      modifies this`activeIndex
      ensures activeIndex == Wrap(old(activeIndex) + step, slideCount)
      ensures step >= -slideCount ==> Valid()
      ensures step == 1 ==> activeIndex == Forward(old(activeIndex), slideCount, 1)
    {
      SetActive(activeIndex + step);
    }
  }
}

=== FILE: common.dfy ===
/** Values shared by the three canvas widgets: an optional reference, a point on
    the drawing surface, the squared distance that stands in for Math.hypot, the
    bounded step toward a destination, and Math.random as an arbitrary fraction. */
module Common {

  datatype Option<T> = None | Some(value: T)

  /** A position in surface-local coordinates. */
  datatype Point = Point(x: real, y: real)

  function Max(a: real, b: real): real { if a >= b then a else b }

  function Min(a: real, b: real): real { if a <= b then a else b }

  /** Square of the straight-line distance between a and b.  Math.hypot returns the
      non-negative square root of this value, so for c >= 0 the test `hypot < c`
      holds exactly when `DistSq < c * c`; the model compares squares. */
  function DistSq(a: Point, b: Point): (d: real)
    ensures d >= 0.0
    ensures a == b ==> d == 0.0
  {
    var dx, dy := b.x - a.x, b.y - a.y;
    assert dx * dx >= 0.0 && dy * dy >= 0.0;
    dx * dx + dy * dy
  }

  /** The point reached by going the fraction `ratio` of the way from p to q:
      `p.x += dx * ratio; p.y += dy * ratio` with (dx, dy) = q - p. */
  function MoveToward(p: Point, q: Point, ratio: real): (r: Point)
    ensures ratio == 0.0 ==> r == p
    ensures ratio == 1.0 ==> r == q
  {
    Point(p.x + (q.x - p.x) * ratio, p.y + (q.y - p.y) * ratio)
  }

  /** A step whose ratio is capped at 1 never overshoots: the agent ends no farther
      from its destination than it started, and exactly on it when the cap applies. */
  lemma {:induction false} MoveTowardNoFarther(p: Point, q: Point, ratio: real)
    requires 0.0 <= ratio <= 1.0
    ensures DistSq(MoveToward(p, q, ratio), q) == (1.0 - ratio) * (1.0 - ratio) * DistSq(p, q)
    ensures DistSq(MoveToward(p, q, ratio), q) <= DistSq(p, q)
  {
    var r := MoveToward(p, q, ratio);
    var dx, dy := q.x - p.x, q.y - p.y;
    var k := 1.0 - ratio;
    assert q.x - r.x == k * dx;
    assert q.y - r.y == k * dy;
    assert (k * dx) * (k * dx) == (k * k) * (dx * dx);
    assert (k * dy) * (k * dy) == (k * k) * (dy * dy);
    calc {
      DistSq(r, q);
      (k * dx) * (k * dx) + (k * dy) * (k * dy);
      (k * k) * (dx * dx + dy * dy);
    }
    assert 0.0 <= k * k <= 1.0 by {
      assert 0.0 <= k <= 1.0;
      assert k * k <= k * 1.0;
    }
    assert (k * k) * DistSq(p, q) <= 1.0 * DistSq(p, q);
  }

  /** `v` is `lo + u * span` for some fraction 0 <= u < 1: the set of values
      `lo + Math.random() * span` can take, for a span of either sign. */
  ghost predicate InSpan(v: real, lo: real, span: real)
  {
    if span > 0.0 then lo <= v < lo + span
    else if span == 0.0 then v == lo
    else lo + span < v <= lo
  }

  lemma {:induction false} FractionInSpan(u: real, lo: real, span: real)
    requires 0.0 <= u < 1.0
    ensures InSpan(lo + u * span, lo, span)
  {
    if span > 0.0 {
      assert 0.0 <= u * span;
      assert (1.0 - u) * span > 0.0;
    } else if span < 0.0 {
      assert u * span <= 0.0;
      assert (1.0 - u) * span < 0.0;
    }
  }

  /** Math.random(): some fraction in [0, 1), chosen by the host. */
  method RandomFraction() returns (u: real)
    ensures 0.0 <= u < 1.0
  {
    u :| 0.0 <= u < 1.0;
  }
}

=== FILE: currency.dfy ===
/** formatCurrency: a whole-dollar amount as the wizard's budget estimate shows it,
    "$" and the amount below 1000, "$" and the rounded thousands followed by "k"
    from 1000 up; and the reading that undoes it. */
module Currency {
  import opened Common

  function DigitChar(d: nat): (c: char)
    requires d < 10
    ensures '0' <= c <= '9'
  {
    (d + '0' as int) as char
  }

  function DigitValue(c: char): (d: nat)
    requires '0' <= c <= '9'
    ensures d < 10
  {
    c as int - '0' as int
  }

  predicate AllDigits(s: string)
  {
    forall i :: 0 <= i < |s| ==> '0' <= s[i] <= '9'
  }

  /** `${n}` for a whole non-negative number: its decimal digits, most significant
      first, with no leading zero. */
  function Decimal(n: nat): (s: string)
    ensures |s| >= 1 && AllDigits(s)
    ensures |s| > 1 ==> s[0] != '0'
    decreases n
  {
    if n < 10 then [DigitChar(n)] else Decimal(n / 10) + [DigitChar(n % 10)]
  }

  /** The number a non-empty digit string denotes. */
  function DigitsValue(s: string): nat
    requires |s| >= 1 && AllDigits(s)
    decreases |s|
  {
    if |s| == 1 then DigitValue(s[0])
    else DigitsValue(s[..|s| - 1]) * 10 + DigitValue(s[|s| - 1])
  }

  /** A decimal number, or None for anything that is not a non-empty digit string. */
  function ParseDecimal(s: string): (r: Option<nat>)
    ensures r.Some? <==> |s| >= 1 && AllDigits(s)
  {
    if |s| >= 1 && AllDigits(s) then Some(DigitsValue(s)) else None
  }

  lemma {:induction false} DecimalRoundTrip(n: nat)
    ensures ParseDecimal(Decimal(n)) == Some(n)
    decreases n
  {
    if n >= 10 {
      DecimalRoundTrip(n / 10);
      var s := Decimal(n);
      assert s[..|s| - 1] == Decimal(n / 10);
      assert DigitValue(DigitChar(n % 10)) == n % 10;
    } else {
      assert DigitValue(DigitChar(n)) == n;
    }
  }

  /** Math.round(v / 1000) for a whole non-negative v: to the nearest thousand,
      halves rounded up. */
  function RoundThousands(v: nat): (k: nat)
    ensures v - 500 < k * 1000 <= v + 500
    ensures v % 1000 == 0 ==> k * 1000 == v
  {
    var k := (v + 500) / 1000;
    assert v + 500 == k * 1000 + (v + 500) % 1000;
    assert v % 1000 == 0 ==> v + 500 == (v / 1000) * 1000 + 500;
    k
  }

  function FormatCurrency(v: nat): (s: string)
    ensures |s| >= 2 && s[0] == '$'
    ensures v >= 1000 ==> s[|s| - 1] == 'k'
    ensures v < 1000 ==> '0' <= s[|s| - 1] <= '9'
  {
    if v >= 1000 then "$" + Decimal(RoundThousands(v)) + "k" else "$" + Decimal(v)
  }

  /** Reads back a label formatCurrency can produce: "$" then digits, optionally
      followed by "k" for thousands. */
  function ParseCurrency(s: string): (r: Option<nat>)
    ensures r.Some? ==> |s| >= 2 && s[0] == '$'
  {
    if |s| < 2 || s[0] != '$' then None
    else if s[|s| - 1] == 'k' then
      match ParseDecimal(s[1..|s| - 1])
      case Some(k) => Some(k * 1000)
      case None => None
    else ParseDecimal(s[1..])
  }

  /** Reading a label back gives the amount to within 500: exactly below 1000,
      and rounded to the nearest thousand from 1000 up. */
  lemma {:induction false} FormatThenParse(v: nat)
    ensures ParseCurrency(FormatCurrency(v)) == Some(if v >= 1000 then RoundThousands(v) * 1000 else v)
  {
    var s := FormatCurrency(v);
    if v >= 1000 {
      var d := Decimal(RoundThousands(v));
      assert s[1..|s| - 1] == d;
      DecimalRoundTrip(RoundThousands(v));
    } else {
      assert s[1..] == Decimal(v);
      DecimalRoundTrip(v);
    }
  }

  /** The estimator only formats whole thousands (and 0), and those read back
      exactly. */
  lemma WholeThousandsReadBack(v: nat)
    requires v % 1000 == 0
    ensures ParseCurrency(FormatCurrency(v)) == Some(v)
  {
    FormatThenParse(v);
  }
}

=== FILE: orbit_game.dfy ===
/** OrbitGame: a hero that either flies itself to the nearest of four rings (auto)
    or follows the arrow/WASD keys or a clicked destination (manual), with a speed
    that ramps up every eight seconds and a 60-node fading trail. */
module OrbitGameSim {
  import opened Common
  import opened Trail
  import opened TargetSelector

  const RingCount := 4
  const GeneratePadding := 38.0
  const RespawnPadding := 32.0
  /** Collect when the distance is below 20. */
  const CollectDistSq := 400.0
  /** Auto mode moves while the distance is above 0.1, a pointer destination is
      pursued while it is farther than 1. */
  const MoveDistSq := 0.01
  const PointerDistSq := 1.0
  const CaptureReward := 15
  const TrailCap := 60
  const TrailFadeRate := 0.9
  const Margin := 18.0
  const AutoSpeed := 95.0
  const ManualSpeed := 130.0
  const SpeedStep := 8.0
  const SpeedCap := 180.0
  const RampInterval := 8.0

  const ControlKeys: set<string> :=
    {"ArrowUp", "ArrowDown", "ArrowLeft", "ArrowRight", "KeyW", "KeyA", "KeyS", "KeyD"}

  datatype Mode = Auto | Manual

  /** A collectable ring; its pulse phase is cosmetic and not modelled. */
  datatype Ring = Ring(pos: Point, collected: bool)

  /** The two strings setMode accepts. */
  function ParseMode(s: string): (m: Option<Mode>)
    ensures m == Some(Auto) <==> s == "auto"
    ensures m == Some(Manual) <==> s == "manual"
  {
    if s == "auto" then Some(Auto) else if s == "manual" then Some(Manual) else None
  }

  /** `speeds[mode] || 100`: 95 in auto, 130 in manual.  Both table entries are
      non-zero, so the fallback 100 is never taken, and each lies within the
      ramp's range. */
  function SpeedFor(m: Mode): (r: real)
    ensures r != 0.0
    ensures AutoSpeed <= r <= SpeedCap
    ensures m == Manual ==> r > AutoSpeed
  {
    match m
    case Auto => AutoSpeed
    case Manual => ManualSpeed
  }

  /** isKeyActive(code): 1 while the key is held, else 0. */
  function KeyActive(keys: set<string>, code: string): (r: int)
    ensures 0 <= r <= 1
    ensures r == 1 <==> code in keys
  {
    if code in keys then 1 else 0
  }

  /** The key-derived direction: right + D - (left + A), and down + S - (up + W). */
  function Horizontal(keys: set<string>): (h: int)
    ensures -2 <= h <= 2
  {
    KeyActive(keys, "ArrowRight") + KeyActive(keys, "KeyD") - (KeyActive(keys, "ArrowLeft") + KeyActive(keys, "KeyA"))
  }

  function Vertical(keys: set<string>): (v: int)
    ensures -2 <= v <= 2
  {
    KeyActive(keys, "ArrowDown") + KeyActive(keys, "KeyS") - (KeyActive(keys, "ArrowUp") + KeyActive(keys, "KeyW"))
  }

  /** Opposing keys cancel: holding all four arrows gives a zero key vector
      although keys are held, so manual steering falls through to the pointer. */
  lemma OpposingKeysCancel(keys: set<string>)
    requires keys == {"ArrowLeft", "ArrowRight", "ArrowUp", "ArrowDown"}
    ensures Horizontal(keys) == 0 && Vertical(keys) == 0 && keys != {}
  {
    assert "ArrowLeft" in keys && "ArrowRight" in keys && "ArrowUp" in keys && "ArrowDown" in keys;
    assert "KeyA" !in keys && "KeyD" !in keys && "KeyW" !in keys && "KeyS" !in keys;
  }

  /** Keep a moved hero inside the surface inset by the 18-unit margin:
      `Math.max(margin, Math.min(extent - margin, v))` on each axis. */
  function ClampToField(p: Point, w: real, h: real): (r: Point)
    ensures r.x >= Margin && r.y >= Margin
    ensures w >= 2.0 * Margin ==> r.x <= w - Margin
    ensures h >= 2.0 * Margin ==> r.y <= h - Margin
    ensures Margin <= p.x <= w - Margin && Margin <= p.y <= h - Margin ==> r == p
  {
    Point(Max(Margin, Min(w - Margin, p.x)), Max(Margin, Min(h - Margin, p.y)))
  }

  function Positions(rs: seq<Ring>): (ps: seq<Point>)
    ensures |ps| == |rs|
    ensures forall i :: 0 <= i < |rs| ==> ps[i] == rs[i].pos
  {
    seq(|rs|, i requires 0 <= i < |rs| => rs[i].pos)
  }

  /** The rings a hero at `at` leaves in place, in their order: those at distance 20 or more. */
  function Kept(rs: seq<Ring>, at: Point): (r: seq<Ring>)
    ensures |r| <= |rs|
    ensures forall k :: 0 <= k < |r| ==> DistSq(r[k].pos, at) >= CollectDistSq
    ensures forall k :: 0 <= k < |r| ==> r[k] in rs
  {
    if rs == [] then []
    else (if DistSq(rs[0].pos, at) < CollectDistSq then [] else [rs[0]]) + Kept(rs[1..], at)
  }

  lemma KeptStep(s: seq<Ring>, i: int, at: Point)
    requires 0 <= i < |s|
    ensures Kept(s[i..], at) == (if DistSq(s[i].pos, at) < CollectDistSq then [] else [s[i]]) + Kept(s[i + 1..], at)
  {
    assert s[i..][1..] == s[i + 1..];
  }

  /** Kept drops nothing exactly when it keeps its whole input. */
  lemma {:induction false} KeptAll(rs: seq<Ring>, at: Point)
    ensures |Kept(rs, at)| == |rs| ==> Kept(rs, at) == rs
  {
    if rs != [] {
      KeptAll(rs[1..], at);
    }
  }

  /** Kept is exactly the filter of the ring loop: a ring of the input is kept if
      and only if it is at distance 20 or more. */
  lemma {:induction false} KeptComplete(rs: seq<Ring>, at: Point)
    ensures forall k :: 0 <= k < |rs| ==> (rs[k] in Kept(rs, at) <==> DistSq(rs[k].pos, at) >= CollectDistSq)
  {
    if rs != [] {
      KeptComplete(rs[1..], at);
      forall k | 0 <= k < |rs|
        ensures rs[k] in Kept(rs, at) <==> DistSq(rs[k].pos, at) >= CollectDistSq
      {
        if k > 0 {
          assert rs[k] == rs[1..][k - 1];
        }
      }
    }
  }

  /** Kept filters each part of a sequence separately, so the rings it keeps stay
      in their original order. */
  lemma {:induction false} KeptAppend(rs: seq<Ring>, ss: seq<Ring>, at: Point)
    ensures Kept(rs + ss, at) == Kept(rs, at) + Kept(ss, at)
  {
    if rs != [] {
      assert (rs + ss)[1..] == rs[1..] + ss;
      KeptAppend(rs[1..], ss, at);
    } else {
      assert rs + ss == ss;
    }
  }

    /** A ring within reach is never kept, so at least one ring is collected. */
  lemma {:induction false} KeptDropsReached(rs: seq<Ring>, at: Point, k: int)
    requires 0 <= k < |rs| && DistSq(rs[k].pos, at) < CollectDistSq
    ensures |Kept(rs, at)| < |rs|
  {
    if k > 0 {
      assert rs[1..][k - 1] == rs[k];
      KeptDropsReached(rs[1..], at, k - 1);
    }
  }

  /** The sequence facts of one step of the backward ring loop, over
      `s[..i + 1] + k + sp` (unvisited prefix, kept rings, spawned rings). */
  lemma LoopShape<T>(s: seq<T>, i: int, k: seq<T>, sp: seq<T>, x: T)
    requires 0 <= i < |s|
    ensures (s[..i + 1] + k + sp)[i] == s[i]
    ensures var r := s[..i + 1] + k + sp; r[..i] + r[i + 1..] + [x] == s[..i] + k + (sp + [x])
    ensures s[..i + 1] + k + sp == s[..i] + ([s[i]] + k) + sp
  {
    var r := s[..i + 1] + k + sp;
    assert s[..i + 1] == s[..i] + [s[i]];
    assert r[..i] == s[..i];
    assert r[i + 1..] == k + sp;
  }

  /** What manual steering does to a hero at `hero0` with pointer destination
      `pointer0` and the held `keys`, ending at `at` with destination `pointer1`:
      a non-zero key vector (h, v) moves the hero by (h, v) * keyStep and cancels
      the destination; a zero key vector falls through to the destination, pursued
      while farther than 1 and forgotten once reached; with neither the hero stays. */
  ghost predicate ManualSteered(keys: set<string>, hero0: Point, pointer0: Option<Point>, ratio: real, keyStep: real,
                                moved: bool, at: Point, pointer1: Option<Point>)
  {
    var h, v := Horizontal(keys), Vertical(keys);
    && (h != 0 || v != 0 ==>
          moved && pointer1 == None
          && at == Point(hero0.x + h as real * keyStep, hero0.y + v as real * keyStep))
    && (h == 0 && v == 0 ==>
          if pointer0.Some? && DistSq(hero0, pointer0.value) > PointerDistSq
          then moved && pointer1 == pointer0 && at == MoveToward(hero0, pointer0.value, ratio)
          else !moved && pointer1 == None && at == hero0)
  }

  /** What auto steering does to a hero at `hero0` with target `target0` among
      `rings`, ending at `at` with target `target1`: the target is kept, or is the
      ring nearest the hero when there was none; the hero steps toward it while
      farther than 0.1, counting as moved only for a positive ratio, and otherwise
      stays. */
  ghost predicate AutoSteered(rings: seq<Ring>, hero0: Point, target0: Option<nat>, ratio: real,
                              moved: bool, at: Point, target1: Option<nat>)
  {
    && target1.Some? && target1.value < |rings|
    && (target0.Some? ==> target1 == target0)
    && (target0.None? ==> IsNearestFirst(Positions(rings), hero0, target1.value))
    && var goal := rings[target1.value].pos;
       if DistSq(hero0, goal) > MoveDistSq
       then moved == (ratio > 0.0) && at == MoveToward(hero0, goal, ratio)
       else !moved && at == hero0
  }

  class OrbitGame {
    var width: real
    var height: real
    var hero: Point
    var speed: real
    /** Index into `rings` of the ring auto mode flies to (the source's `target`). */
    var target: Option<nat>
    /** The held control keys (the source's `keys` dictionary, whose values are all `true`). */
    var keys: set<string>
    var pointerTarget: Option<Point>
    var rings: seq<Ring>
    var trail: seq<TrailNode>
    var score: int
    var difficultyTimer: real
    var mode: Mode

    /** The invariant every handler and every tick keeps: four live, uncollected
        rings; a target, if any, among them; a speed between 95 and the cap 180; a
        bounded trail; and in auto mode no held keys and no pointer destination. */
    ghost predicate Valid()
      reads this
    {
      && |rings| == RingCount
      && (forall i :: 0 <= i < |rings| ==> !rings[i].collected)
      && (target.Some? ==> target.value < |rings|)
      && score >= 0
      && AutoSpeed <= speed <= SpeedCap
      && |trail| <= TrailCap
      && (forall i :: 0 <= i < |trail| ==> trail[i].life >= 0.0)
      && keys <= ControlKeys
      && (mode == Auto ==> keys == {} && pointerTarget == None)
    }

    /** p is a position randomRing(padding) can produce for the current surface. */
    ghost predicate InRingArea(p: Point, padding: real)
      reads this`width, this`height
    {
      InSpan(p.x, padding, width - padding * 2.0) && InSpan(p.y, padding, height - padding * 2.0)
    }

    /** The game as the constructor leaves it: hero centred, four rings, auto mode
        at speed 95 with the nearest ring targeted, no input, no score. */
    constructor (w: real, h: real)
      ensures Valid()
      ensures width == w && height == h && hero == Point(w / 2.0, h / 2.0)
      ensures mode == Auto && speed == AutoSpeed && difficultyTimer == 0.0
      ensures keys == {} && pointerTarget == None && score == 0 && trail == []
      ensures forall i :: 0 <= i < |rings| ==> InRingArea(rings[i].pos, GeneratePadding)
      ensures target.Some? && IsNearestFirst(Positions(rings), hero, target.value)
    {
      width, height := w, h;
      hero := Point(w / 2.0, h / 2.0);
      speed := AutoSpeed;
      target, keys, pointerTarget := None, {}, None;
      rings, trail := [], [];
      score, difficultyTimer := 0, 0.0;
      mode := Auto;
      new;
      GenerateRings();
    }

    /** handleResize: adopt the new size, centre a hero still at the origin, and
        regenerate the rings for the new bounds. */
    method Resize(w: real, h: real)
      requires Valid()
      modifies this`width, this`height, this`hero, this`rings, this`target
      ensures Valid()
      ensures width == w && height == h
      ensures hero == if old(hero) == Point(0.0, 0.0) then Point(w / 2.0, h / 2.0) else old(hero)
      ensures forall i :: 0 <= i < |rings| ==> InRingArea(rings[i].pos, GeneratePadding)
      ensures target.Some? && IsNearestFirst(Positions(rings), hero, target.value)
    {
      width, height := w, h;
      if hero.x == 0.0 && hero.y == 0.0 {
        hero := Point(width / 2.0, height / 2.0);
      }
      if |rings| > 0 {
        GenerateRings();
      }
    }

    /** randomRing(padding): an uncollected ring at padding plus a random fraction of
        extent - 2 * padding on each axis (no minimum span, unlike SparkRunner). */
    method RandomRing(padding: real) returns (r: Ring)
      ensures !r.collected && InRingArea(r.pos, padding)
    {
      var u := RandomFraction();
      var v := RandomFraction();
      var spanX, spanY := width - padding * 2.0, height - padding * 2.0;
      r := Ring(Point(padding + u * spanX, padding + v * spanY), false);
      FractionInSpan(u, padding, spanX);
      FractionInSpan(v, padding, spanY);
    }

    /** generateRings: four fresh rings, then the nearest is targeted. */
    method GenerateRings()
      modifies this`rings, this`target
      ensures |rings| == RingCount
      ensures forall i :: 0 <= i < |rings| ==> !rings[i].collected && InRingArea(rings[i].pos, GeneratePadding)
      ensures target.Some? && IsNearestFirst(Positions(rings), hero, target.value)
    {
      rings := [];
      for i := 0 to RingCount
        invariant |rings| == i
        invariant forall k :: 0 <= k < i ==> !rings[k].collected && InRingArea(rings[k].pos, GeneratePadding)
      {
        var r := RandomRing(GeneratePadding);
        rings := rings + [r];
      }
      ChooseNextTarget();
    }

    /** chooseNextTarget: no target without rings, otherwise the nearest ring, the
        earliest on a tie. */
    method ChooseNextTarget()
      modifies this`target
      ensures rings == [] ==> target == None
      ensures rings != [] ==> target.Some? && IsNearestFirst(Positions(rings), hero, target.value)
    {
      if |rings| == 0 {
        target := None;
        return;
      }
      target := ChooseNearest(Positions(rings), hero);
    }

    /** setMode(requested): anything but "auto" or "manual", or the mode already
        active, changes nothing.  A real switch sets the mode's speed and restarts
        the difficulty timer; entering auto drops the held keys and the pointer
        destination and targets the nearest ring, entering manual drops the target. */
    method SetMode(requested: string)
      requires Valid()
      modifies this`mode, this`speed, this`difficultyTimer, this`pointerTarget, this`keys, this`target
      ensures Valid()
      ensures ParseMode(requested).None? ==> unchanged(this)
      ensures ParseMode(requested) == Some(old(mode)) ==> unchanged(this)
      ensures ParseMode(requested).Some? && ParseMode(requested).value != old(mode) ==>
        && mode == ParseMode(requested).value
        && speed == SpeedFor(mode) && difficultyTimer == 0.0
        && (mode == Auto ==>
              keys == {} && pointerTarget == None
              && target.Some? && IsNearestFirst(Positions(rings), hero, target.value))
        && (mode == Manual ==>
              target == None && keys == old(keys) && pointerTarget == old(pointerTarget))
    {
      var parsed := ParseMode(requested);
      if parsed.None? {
        return;
      }
      if parsed.value == mode {
        return;
      }
      mode := parsed.value;
      speed := SpeedFor(mode);
      difficultyTimer := 0.0;
      if mode == Auto {
        pointerTarget := None;
        keys := {};
        ChooseNextTarget();
      } else {
        target := None;
      }
    }

    /** handleKeyDown(code): a control key switches to manual (if needed), is
        recorded as held and cancels the pointer destination; other keys do nothing. */
    method HandleKeyDown(code: string)
      requires Valid()
      modifies this`mode, this`speed, this`difficultyTimer, this`pointerTarget, this`keys, this`target
      ensures Valid()
      ensures code !in ControlKeys ==> unchanged(this)
      ensures code in ControlKeys ==>
        && mode == Manual && keys == old(keys) + {code} && pointerTarget == None
        && (old(mode) == Auto ==> speed == ManualSpeed && difficultyTimer == 0.0 && target == None)
        && (old(mode) == Manual ==>
              speed == old(speed) && difficultyTimer == old(difficultyTimer) && target == old(target))
    {
      if code in ControlKeys {
        if mode != Manual {
          SetMode("manual");
        }
        keys := keys + {code};
        pointerTarget := None;
      }
    }

    /** handleKeyUp(code): the key is no longer held; nothing else changes. */
    method HandleKeyUp(code: string)
      requires Valid()
      modifies this`keys
      ensures Valid()
      ensures keys == old(keys) - {code}
    {
      if code in keys {
        keys := keys - {code};
      }
    }

    /** handleBlur: every key released, the pointer destination forgotten. */
    method HandleBlur()
      requires Valid()
      modifies this`keys, this`pointerTarget
      ensures Valid()
      ensures keys == {} && pointerTarget == None
    {
      keys := {};
      pointerTarget := None;
    }

    /** handlePointer(at): switch to manual (if needed) and fly to `at`, the click
        position already translated into surface coordinates by the host. */
    method HandlePointer(at: Point)
      requires Valid()
      modifies this`mode, this`speed, this`difficultyTimer, this`pointerTarget, this`keys, this`target
      ensures Valid()
      ensures mode == Manual && pointerTarget == Some(at) && keys == old(keys)
      ensures old(mode) == Auto ==> speed == ManualSpeed && difficultyTimer == 0.0 && target == None
      ensures old(mode) == Manual ==>
        speed == old(speed) && difficultyTimer == old(difficultyTimer) && target == old(target)
    {
      if mode != Manual {
        SetMode("manual");
      }
      if mode != Manual {
        return;
      }
      pointerTarget := Some(at);
    }

    /** The movement half of update, before the margin clamp: manual or auto
        steering by the current mode.  `ratio` is the host's step fraction
        min(speed * delta / distance, 1) toward a destination; `keyStep` is the
        host's speed * delta / hypot(h, v) for a key vector (h, v). */
    method Steer(ratio: real, keyStep: real) returns (moved: bool)
      requires Valid()
      modifies this`hero, this`target, this`pointerTarget
      ensures Valid()
      ensures mode == Manual ==>
        target == None && ManualSteered(keys, old(hero), old(pointerTarget), ratio, keyStep, moved, hero, pointerTarget)
      ensures mode == Auto ==> AutoSteered(rings, old(hero), old(target), ratio, moved, hero, target)
    {
      if mode == Manual {
        moved := SteerManual(ratio, keyStep);
      } else {
        moved := SteerAuto(ratio);
      }
    }

    /** The manual branch of update. */
    method SteerManual(ratio: real, keyStep: real) returns (moved: bool)
      requires Valid() && mode == Manual
      modifies this`hero, this`target, this`pointerTarget
      ensures Valid()
      ensures target == None
      ensures ManualSteered(keys, old(hero), old(pointerTarget), ratio, keyStep, moved, hero, pointerTarget)
    {
      moved := false;
      target := None;
      var horizontal, vertical := Horizontal(keys), Vertical(keys);
      if horizontal != 0 || vertical != 0 {
        hero := Point(hero.x + horizontal as real * keyStep, hero.y + vertical as real * keyStep);
        moved := true;
        pointerTarget := None;
      } else if pointerTarget.Some? {
        if DistSq(hero, pointerTarget.value) > PointerDistSq {
          hero := MoveToward(hero, pointerTarget.value, ratio);
          moved := true;
        } else {
          pointerTarget := None;
        }
      }
    }

    /** The auto branch of update; a target that was collected is replaced too,
        though a live ring is never marked collected. */
    method SteerAuto(ratio: real) returns (moved: bool)
      requires Valid() && mode == Auto
      modifies this`hero, this`target
      ensures Valid()
      ensures AutoSteered(rings, old(hero), old(target), ratio, moved, hero, target)
    {
      moved := false;
      if target.None? || rings[target.value].collected {
        ChooseNextTarget();
      }
      if target.Some? {
        var goal := rings[target.value].pos;
        if DistSq(hero, goal) > MoveDistSq {
          hero := MoveToward(hero, goal, ratio);
          moved := ratio > 0.0;
        }
      }
    }

    /** The difficulty ramp of update: once the timer exceeds 8 seconds it restarts
        and the speed rises by 8, never past 180. */
    method Ramp()
      requires Valid()
      modifies this`difficultyTimer, this`speed
      ensures Valid()
      ensures old(difficultyTimer) > RampInterval ==>
        difficultyTimer == 0.0 && speed == Min(old(speed) + SpeedStep, SpeedCap)
      ensures old(difficultyTimer) <= RampInterval ==>
        difficultyTimer == old(difficultyTimer) && speed == old(speed)
      ensures old(speed) <= speed <= SpeedCap
    {
      if difficultyTimer > RampInterval {
        difficultyTimer := 0.0;
        speed := Min(speed + SpeedStep, SpeedCap);
      }
    }

    /** collectRing(rings[i]): +15 points; the ring is spliced out, a fresh random
        ring is pushed at the end (so there are still four), and the nearest ring
        is targeted, in either mode. */
    method CollectRing(i: nat)
      requires Valid() && i < |rings|
      modifies this`rings, this`score, this`target
      ensures Valid()
      ensures score == old(score) + CaptureReward
      ensures |rings| == |old(rings)|
      ensures rings == old(rings)[..i] + old(rings)[i + 1..] + [rings[|rings| - 1]]
      ensures InRingArea(rings[|rings| - 1].pos, RespawnPadding)
      ensures target.Some? && IsNearestFirst(Positions(rings), hero, target.value)
    {
      score := score + CaptureReward;
      rings := rings[..i] + rings[i + 1..];
      var spawn := RandomRing(RespawnPadding);
      rings := rings + [spawn];
      ChooseNextTarget();
    }

    /** The ring loop at index i, for a ring within reach: it is collected and its
        replacement joins the spawned rings at the end. */
    method CollectAt(i: nat, ghost start: seq<Ring>, ghost kept: seq<Ring>, ghost spawned: seq<Ring>)
      returns (ghost spawn: Ring)
      requires Valid() && i < |start| && DistSq(start[i].pos, hero) < CollectDistSq
      requires kept == Kept(start[i + 1..], hero)
      requires rings == start[..i + 1] + kept + spawned
      modifies this`rings, this`score, this`target
      ensures Valid()
      ensures kept == Kept(start[i..], hero)
      ensures rings == start[..i] + kept + (spawned + [spawn])
      ensures InRingArea(spawn.pos, RespawnPadding)
      ensures score == old(score) + CaptureReward
      ensures target.Some? && IsNearestFirst(Positions(rings), hero, target.value)
    {
      KeptStep(start, i, hero);
      LoopShape(start, i, kept, spawned, rings[i]);
      CollectRing(i);
      spawn := rings[|rings| - 1];
      LoopShape(start, i, kept, spawned, spawn);
    }

    /** The ring loop of update, run backwards so that splicing never skips a ring:
        every ring within 20 of the hero is collected.  The rings that stay keep
        their order at the front, one fresh ring per capture follows them, and the
        score rises by exactly 15 per capture. */
    method CollectNearby()
      requires Valid()
      modifies this`rings, this`score, this`target
      ensures Valid()
      ensures |rings| == RingCount
      ensures rings[..|Kept(old(rings), hero)|] == Kept(old(rings), hero)
      ensures forall j :: |Kept(old(rings), hero)| <= j < |rings| ==> InRingArea(rings[j].pos, RespawnPadding)
      ensures score == old(score) + CaptureReward * (RingCount - |Kept(old(rings), hero)|)
      ensures |Kept(old(rings), hero)| < RingCount ==>
        target.Some? && IsNearestFirst(Positions(rings), hero, target.value)
      ensures |Kept(old(rings), hero)| == RingCount ==> target == old(target) && rings == old(rings)
    {
      ghost var start := rings;
      ghost var kept: seq<Ring> := [];
      ghost var spawned: seq<Ring> := [];
      var i := |rings| - 1;
      while i >= 0
        invariant Valid()
        invariant -1 <= i < |start|
        invariant kept == Kept(start[i + 1..], hero)
        invariant rings == start[..i + 1] + kept + spawned
        invariant |kept| + |spawned| == |start| - (i + 1)
        invariant forall j :: 0 <= j < |spawned| ==> InRingArea(spawned[j].pos, RespawnPadding)
        invariant score == old(score) + CaptureReward * |spawned|
        invariant |spawned| > 0 ==> target.Some? && IsNearestFirst(Positions(rings), hero, target.value)
        invariant |spawned| == 0 ==> target == old(target)
      {
        LoopShape(start, i, kept, spawned, start[i]);
        if DistSq(rings[i].pos, hero) < CollectDistSq {
          ghost var spawn := CollectAt(i, start, kept, spawned);
          spawned := spawned + [spawn];
        } else {
          KeptStep(start, i, hero);
          kept := [start[i]] + kept;
        }
        i := i - 1;
      }
      assert kept == Kept(start, hero) by {
        assert start[0..] == start;
      }
      assert |spawned| == RingCount - |kept|;
      KeptAll(start, hero);
    }

    /** The trail part of update: the hero's position is pushed, the oldest nodes
        beyond 60 are dropped, and every node fades by delta * 0.9. */
    method RecordHero(delta: real)
      requires Valid()
      modifies this`trail
      ensures Valid()
      ensures trail == FadeAll(Newest(old(trail) + [TrailNode(hero.x, hero.y, 1.0)], TrailCap), delta * TrailFadeRate)
      ensures trail[|trail| - 1].x == hero.x && trail[|trail| - 1].y == hero.y
      ensures delta >= 0.0 && LivesInUnit(old(trail)) ==> LivesInUnit(trail)
    {
      trail := Record(trail, hero, TrailCap, delta * TrailFadeRate);
    }

    /** The first half of update: steer to the point `steered`, clamp a moved hero
        into the margins, record the hero in the trail (faded by delta * 0.9), and
        apply the difficulty ramp.  The rings and the score are untouched. */
    method Advance(delta: real, ratio: real, keyStep: real) returns (moved: bool, ghost steered: Point)
      requires Valid()
      modifies this`hero, this`target, this`pointerTarget, this`trail, this`difficultyTimer, this`speed
      ensures Valid()
      ensures mode == Manual ==>
        target == None && ManualSteered(keys, old(hero), old(pointerTarget), ratio, keyStep, moved, steered, pointerTarget)
      ensures mode == Auto ==> AutoSteered(rings, old(hero), old(target), ratio, moved, steered, target)
      ensures hero == if moved then ClampToField(steered, width, height) else steered
      ensures trail == FadeAll(Newest(old(trail) + [TrailNode(hero.x, hero.y, 1.0)], TrailCap), delta * TrailFadeRate)
      ensures trail[|trail| - 1].x == hero.x && trail[|trail| - 1].y == hero.y
      ensures delta >= 0.0 && LivesInUnit(old(trail)) ==> LivesInUnit(trail)
      ensures old(difficultyTimer) > RampInterval ==>
        difficultyTimer == 0.0 && speed == Min(old(speed) + SpeedStep, SpeedCap)
      ensures old(difficultyTimer) <= RampInterval ==>
        difficultyTimer == old(difficultyTimer) && speed == old(speed)
    {
      moved := Steer(ratio, keyStep);
      steered := hero;
      if moved {
        hero := ClampToField(hero, width, height);
      }
      RecordHero(delta);
      Ramp();
    }

    /** update(delta): steer the hero to `steered` (with the target `aimed`), clamp
        it into the margins if it moved, advance its trail and the ramp, then
        collect every ring within reach of where it ended.  When nothing is in
        reach the rings and the aimed target stay; otherwise the nearest ring is
        targeted, in either mode.  Mode, held keys and the pointer destination left
        by steering do not change afterwards. */
    method Update(delta: real, ratio: real, keyStep: real) returns (ghost moved: bool, ghost steered: Point, ghost aimed: Option<nat>)
      requires Valid()
      modifies this`hero, this`target, this`pointerTarget, this`trail, this`difficultyTimer, this`speed, this`rings, this`score
      ensures Valid()
      ensures mode == old(mode) && keys == old(keys)
      ensures mode == Manual ==>
        aimed == None && ManualSteered(keys, old(hero), old(pointerTarget), ratio, keyStep, moved, steered, pointerTarget)
      ensures mode == Auto ==> AutoSteered(old(rings), old(hero), old(target), ratio, moved, steered, aimed)
      ensures hero == if moved then ClampToField(steered, width, height) else steered
      ensures trail == FadeAll(Newest(old(trail) + [TrailNode(hero.x, hero.y, 1.0)], TrailCap), delta * TrailFadeRate)
      ensures trail[|trail| - 1].x == hero.x && trail[|trail| - 1].y == hero.y
      ensures delta >= 0.0 && LivesInUnit(old(trail)) ==> LivesInUnit(trail)
      ensures old(difficultyTimer) > RampInterval ==>
        difficultyTimer == 0.0 && speed == Min(old(speed) + SpeedStep, SpeedCap)
      ensures old(difficultyTimer) <= RampInterval ==>
        difficultyTimer == old(difficultyTimer) && speed == old(speed)
      ensures |rings| == RingCount
      ensures rings[..|Kept(old(rings), hero)|] == Kept(old(rings), hero)
      ensures forall j :: |Kept(old(rings), hero)| <= j < |rings| ==> InRingArea(rings[j].pos, RespawnPadding)
      ensures score == old(score) + CaptureReward * (RingCount - |Kept(old(rings), hero)|)
      ensures |Kept(old(rings), hero)| == RingCount ==> rings == old(rings) && target == aimed
      ensures |Kept(old(rings), hero)| < RingCount ==>
        target.Some? && IsNearestFirst(Positions(rings), hero, target.value)
    {
      moved, steered := Advance(delta, ratio, keyStep);
      aimed := target;
      CollectNearby();
    }

    /** One frame of loop without the scheduling: the elapsed time feeds the
        difficulty timer, then update runs. */
    method Frame(delta: real, ratio: real, keyStep: real) returns (ghost moved: bool, ghost steered: Point, ghost aimed: Option<nat>)
      requires Valid()
      modifies this`hero, this`target, this`pointerTarget, this`trail, this`difficultyTimer, this`speed, this`rings, this`score
      ensures Valid()
      ensures old(difficultyTimer) + delta > RampInterval ==>
        difficultyTimer == 0.0 && speed == Min(old(speed) + SpeedStep, SpeedCap)
      ensures old(difficultyTimer) + delta <= RampInterval ==>
        difficultyTimer == old(difficultyTimer) + delta && speed == old(speed)
      ensures mode == old(mode) && keys == old(keys)
      ensures mode == Manual ==>
        aimed == None && ManualSteered(keys, old(hero), old(pointerTarget), ratio, keyStep, moved, steered, pointerTarget)
      ensures mode == Auto ==> AutoSteered(old(rings), old(hero), old(target), ratio, moved, steered, aimed)
      ensures hero == if moved then ClampToField(steered, width, height) else steered
      ensures trail == FadeAll(Newest(old(trail) + [TrailNode(hero.x, hero.y, 1.0)], TrailCap), delta * TrailFadeRate)
      ensures |rings| == RingCount
      ensures rings[..|Kept(old(rings), hero)|] == Kept(old(rings), hero)
      ensures forall j :: |Kept(old(rings), hero)| <= j < |rings| ==> InRingArea(rings[j].pos, RespawnPadding)
      ensures score == old(score) + CaptureReward * (RingCount - |Kept(old(rings), hero)|)
      ensures |Kept(old(rings), hero)| == RingCount ==> rings == old(rings) && target == aimed
      ensures |Kept(old(rings), hero)| < RingCount ==>
        target.Some? && IsNearestFirst(Positions(rings), hero, target.value)
    {
      difficultyTimer := difficultyTimer + delta;
      moved, steered, aimed := Update(delta, ratio, keyStep);
    }
  }

  /** Switching to manual and back to auto leaves no held key and no pointer
      destination, and a ring is targeted again. */
  method ManualThenAuto(game: OrbitGame)
    requires game.Valid()
    modifies game
    ensures game.Valid() && game.mode == Auto
    ensures game.keys == {} && game.pointerTarget == None && game.target.Some?
  {
    game.SetMode("manual");
    game.SetMode("auto");
  }

  /** A manual hero with no key held and no destination stays where it is, and
      so does the trail's newest node. */
  method IdleManualHeroStays(game: OrbitGame, delta: real, ratio: real, keyStep: real)
    requires game.Valid() && game.mode == Manual && game.keys == {} && game.pointerTarget == None
    modifies game
    ensures game.hero == old(game.hero)
    ensures |game.trail| >= 1 && game.trail[|game.trail| - 1].x == game.hero.x && game.trail[|game.trail| - 1].y == game.hero.y
  {
    assert Horizontal({}) == 0 && Vertical({}) == 0;
    var _, _, _ := game.Update(delta, ratio, keyStep);
  }

  /** An auto hero standing on its target ring does not move and collects that
      ring on the same tick: the score rises by at least 15. */
  method TargetUnderHeroScores(game: OrbitGame, delta: real, ratio: real, keyStep: real)
    requires game.Valid() && game.mode == Auto
    requires game.target.Some? && game.rings[game.target.value].pos == game.hero
    modifies game
    ensures game.hero == old(game.hero)
    ensures game.score >= old(game.score) + CaptureReward
  {
    ghost var rings0, t := game.rings, game.target.value;
    var _, _, _ := game.Update(delta, ratio, keyStep);
    KeptDropsReached(rings0, game.hero, t);
  }
}

=== FILE: planner.dfy ===
/** The engagement planner: the visitor ticks challenges, and the recipe matching
    the most of them is shown, the first one listed on a tie, or the general
    full-cycle plan when nothing matches. */
module Planner {
  import opened Common

  /** A recipe's identity and the challenge ids it answers; its texts are not modelled. */
  datatype Recipe = Recipe(id: string, matches: seq<string>)

  const Recipes: seq<Recipe> := [
    Recipe("launch-fast", ["fast-launch", "strategy"]),
    Recipe("experience-refresh", ["design-refresh"]),
    Recipe("automation", ["automation"]),
    Recipe("scale", ["scale"]),
    Recipe("product-team", ["product-team"]),
    Recipe("strategy", ["strategy"])
  ]

  /** `recipe.matches.filter((match) => selected.includes(match)).length`. */
  function MatchCount(matches: seq<string>, selected: seq<string>): (n: nat)
    ensures n <= |matches|
    ensures selected == [] ==> n == 0
    ensures n == 0 <==> forall k :: 0 <= k < |matches| ==> matches[k] !in selected
  {
    if matches == [] then 0
    else (if matches[0] in selected then 1 else 0) + MatchCount(matches[1..], selected)
  }

  function Score(recipes: seq<Recipe>, selected: seq<string>, i: int): nat
    requires 0 <= i < |recipes|
  {
    MatchCount(recipes[i].matches, selected)
  }

  /** The pick findRecipe makes: recipe i scores above zero, at least as high as
      every recipe and strictly higher than every earlier one. */
  ghost predicate IsFirstBest(recipes: seq<Recipe>, selected: seq<string>, i: int)
  {
    && 0 <= i < |recipes|
    && Score(recipes, selected, i) > 0
    && (forall j :: 0 <= j < |recipes| ==> Score(recipes, selected, j) <= Score(recipes, selected, i))
    && (forall j :: 0 <= j < i ==> Score(recipes, selected, j) < Score(recipes, selected, i))
  }

  /** findRecipe(selected): None stands for the default recipe, returned for an
      empty selection and whenever no recipe matches anything selected. */
  method FindRecipe(recipes: seq<Recipe>, selected: seq<string>) returns (best: Option<nat>)
    ensures best.None? <==> forall j :: 0 <= j < |recipes| ==> Score(recipes, selected, j) == 0
    ensures best.Some? ==> IsFirstBest(recipes, selected, best.value)
  {
    best := None;
    if |selected| == 0 {
      return;
    }
    var bestScore := 0;
    for i := 0 to |recipes|
      invariant best.None? ==> bestScore == 0
      invariant best.Some? ==> best.value < i && bestScore == Score(recipes, selected, best.value) > 0
      invariant forall j :: 0 <= j < i ==> Score(recipes, selected, j) <= bestScore
      invariant best.Some? ==> forall j :: 0 <= j < best.value ==> Score(recipes, selected, j) < bestScore
    {
      var score := MatchCount(recipes[i].matches, selected);
      assert score == Score(recipes, selected, i);
      if score > bestScore {
        best, bestScore := Some(i), score;
      }
    }
  }

  /** The tie rule leaves no freedom: at most one recipe is the first best. */
  lemma FirstBestUnique(recipes: seq<Recipe>, selected: seq<string>, i: int, k: int)
    requires IsFirstBest(recipes, selected, i) && IsFirstBest(recipes, selected, k)
    ensures i == k
  {
    assert Score(recipes, selected, i) == Score(recipes, selected, k);
  }

  /** Ticking only "strategy" ties the launch sprint and the clarity workshop at
      one match each; the launch sprint, listed first, is the pick. */
  lemma StrategyPicksLaunchFast()
    ensures IsFirstBest(Recipes, ["strategy"], 0)
  {
    var sel := ["strategy"];
    assert Score(Recipes, sel, 0) == 1 by {
      assert Recipes[0].matches[1..][1..] == [];
    }
    assert "design-refresh" !in sel && "automation" !in sel && "scale" !in sel && "product-team" !in sel;
    assert Score(Recipes, sel, 5) == 1;
    forall j | 0 <= j < |Recipes|
      ensures Score(Recipes, sel, j) <= 1
    {
    }
  }

  /** Ticking "fast-launch" and "strategy" makes the launch sprint the only recipe
      with two matches. */
  lemma BothLaunchChallengesPickLaunchFast()
    ensures IsFirstBest(Recipes, ["fast-launch", "strategy"], 0)
  {
    var sel := ["fast-launch", "strategy"];
    assert Score(Recipes, sel, 0) == 2 by {
      assert Recipes[0].matches[1..][1..] == [];
    }
  }
}

=== FILE: spark_runner.dfy ===
/** SparkRunner: one autonomous agent chasing the nearest of six targets, leaving a
    40-node fading trail and a short-lived sparkle on every capture. */
module SparkRunnerSim {
  import opened Common
  import opened Trail
  import opened TargetSelector

  const TargetCount := 6
  /** Padding of populateTargets, and the (different) padding of a respawned target. */
  const PopulatePadding := 28.0
  const RespawnPadding := 24.0
  /** Capture when the distance is below 10; move only when it is above 0.1. */
  const CaptureDistSq := 100.0
  const MoveDistSq := 0.01
  const CaptureReward := 7
  const TrailCap := 40
  const TrailFadeRate := 1.3
  const SparkleFadeRate := 0.9
  const SparkleGrowRate := 24.0

  /** The ring that expands and fades where a target was captured. */
  datatype Sparkle = Sparkle(x: real, y: real, radius: real, life: real)

  /** `sparkle.life -= delta * 0.9; sparkle.radius += delta * 24`. */
  function Aged(s: Sparkle, delta: real): (r: Sparkle)
    ensures r.x == s.x && r.y == s.y
    ensures delta >= 0.0 ==> r.life <= s.life && r.radius >= s.radius
    ensures (s.life - r.life) * SparkleGrowRate == (r.radius - s.radius) * SparkleFadeRate
  {
    s.(life := s.life - delta * SparkleFadeRate, radius := s.radius + delta * SparkleGrowRate)
  }

  /** The sparkles left after one tick: each one aged, those whose life reached 0 or
      below dropped, the others kept in their order. */
  function AgeSparkles(ss: seq<Sparkle>, delta: real): (r: seq<Sparkle>)
    ensures |r| <= |ss|
    ensures forall k :: 0 <= k < |r| ==> r[k].life > 0.0
    ensures delta == 0.0 && (forall k :: 0 <= k < |ss| ==> ss[k].life > 0.0) ==> r == ss
  {
    if ss == [] then []
    else
      var s := Aged(ss[0], delta);
      (if s.life <= 0.0 then [] else [s]) + AgeSparkles(ss[1..], delta)
  }

  /** AgeSparkles loses no live sparkle and invents none: every sparkle still
      alive after ageing is kept as its aged self, and everything kept is some
      sparkle aged. */
  lemma {:induction false} AgeSparklesComplete(ss: seq<Sparkle>, delta: real)
    ensures forall k :: 0 <= k < |ss| && Aged(ss[k], delta).life > 0.0 ==> Aged(ss[k], delta) in AgeSparkles(ss, delta)
    ensures forall x :: x in AgeSparkles(ss, delta) ==> exists j :: 0 <= j < |ss| && x == Aged(ss[j], delta)
  {
    if ss != [] {
      AgeSparklesComplete(ss[1..], delta);
      forall k | 0 <= k < |ss| && Aged(ss[k], delta).life > 0.0
        ensures Aged(ss[k], delta) in AgeSparkles(ss, delta)
      {
        if k > 0 {
          assert ss[k] == ss[1..][k - 1];
        }
      }
      forall x | x in AgeSparkles(ss, delta)
        ensures exists j :: 0 <= j < |ss| && x == Aged(ss[j], delta)
      {
        if x != Aged(ss[0], delta) {
          var j :| 0 <= j < |ss[1..]| && x == Aged(ss[1..][j], delta);
          assert ss[1..][j] == ss[j + 1];
        }
      }
    }
  }

  /** The backward loop of update that ages each sparkle and splices out the dead. */
  method FadeSparkles(ss: seq<Sparkle>, delta: real) returns (r: seq<Sparkle>)
    ensures r == AgeSparkles(ss, delta)
  {
    r := ss;
    var i := |ss| - 1;
    while i >= 0
      invariant -1 <= i < |ss|
      invariant r == ss[..i + 1] + AgeSparkles(ss[i + 1..], delta)
    {
      assert ss[i..][1..] == ss[i + 1..];
      var s := Aged(r[i], delta);
      if s.life <= 0.0 {
        r := r[..i] + r[i + 1..];
      } else {
        r := r[i := s];
      }
      assert ss[..i + 1] == ss[..i] + [ss[i]];
      i := i - 1;
    }
    assert ss[0..] == ss;
  }

  class SparkRunner {
    var width: real
    var height: real
    var agent: Point
    var targets: seq<Point>
    /** Index into `targets` of the target being chased. */
    var activeTarget: Option<nat>
    var trail: seq<TrailNode>
    var sparkles: seq<Sparkle>
    var score: int

    ghost predicate Valid()
      reads this
    {
      && |targets| == TargetCount
      && activeTarget.Some? && activeTarget.value < |targets|
      && score >= 0
      && |trail| <= TrailCap
      && (forall i :: 0 <= i < |trail| ==> trail[i].life >= 0.0)
      && (forall k :: 0 <= k < |sparkles| ==> sparkles[k].life > 0.0)
    }

    /** p is a value randomPoint(padding) can return for the current surface size. */
    ghost predicate InSpawnArea(p: Point, padding: real)
      reads this`width, this`height
    {
      && InSpan(p.x, padding, Max(10.0, width - padding * 2.0))
      && InSpan(p.y, padding, Max(10.0, height - padding * 2.0))
    }

    /** The widget as the constructor leaves it: sized to the surface, the agent at
        its centre (it starts at the origin), six targets, the nearest one chased. */
    constructor (w: real, h: real)
      ensures Valid()
      ensures width == w && height == h && agent == Point(w / 2.0, h / 2.0)
      ensures score == 0 && trail == [] && sparkles == []
      ensures forall i :: 0 <= i < |targets| ==> InSpawnArea(targets[i], PopulatePadding)
      ensures IsNearestFirst(targets, agent, activeTarget.value)
    {
      width, height := w, h;
      agent := Point(w / 2.0, h / 2.0);
      targets, activeTarget := [], None;
      trail, sparkles := [], [];
      score := 0;
      new;
      PopulateTargets();
    }

    /** handleResize: adopt the new size, centre an agent still at the origin, and
        re-seed the targets when there are any. */
    method Resize(w: real, h: real)
      requires Valid()
      modifies this`width, this`height, this`agent, this`targets, this`activeTarget
      ensures Valid()
      ensures width == w && height == h
      ensures agent == if old(agent) == Point(0.0, 0.0) then Point(w / 2.0, h / 2.0) else old(agent)
      ensures forall i :: 0 <= i < |targets| ==> InSpawnArea(targets[i], PopulatePadding)
      ensures IsNearestFirst(targets, agent, activeTarget.value)
    {
      width, height := w, h;
      if agent.x == 0.0 && agent.y == 0.0 {
        agent := Point(width / 2.0, height / 2.0);
      }
      if |targets| > 0 {
        PopulateTargets();
      }
    }

    /** randomPoint(padding): on each axis, padding plus a random fraction of
        max(10, extent - 2 * padding). */
    method RandomPoint(padding: real) returns (p: Point)
      ensures InSpawnArea(p, padding)
    {
      var u := RandomFraction();
      var v := RandomFraction();
      var spanX, spanY := Max(10.0, width - padding * 2.0), Max(10.0, height - padding * 2.0);
      p := Point(padding + u * spanX, padding + v * spanY);
      FractionInSpan(u, padding, spanX);
      FractionInSpan(v, padding, spanY);
    }

    /** populateTargets: six fresh random targets, then the nearest is chosen. */
    method PopulateTargets()
      modifies this`targets, this`activeTarget
      ensures |targets| == TargetCount
      ensures forall i :: 0 <= i < |targets| ==> InSpawnArea(targets[i], PopulatePadding)
      ensures activeTarget.Some? && IsNearestFirst(targets, agent, activeTarget.value)
    {
      targets := [];
      for i := 0 to TargetCount
        invariant |targets| == i
        invariant forall k :: 0 <= k < i ==> InSpawnArea(targets[k], PopulatePadding)
      {
        var p := RandomPoint(PopulatePadding);
        targets := targets + [p];
      }
      ChooseNextTarget();
    }

    /** chooseNextTarget: with no targets the chased target is left as it was;
        otherwise the nearest target, the earliest on a tie. */
    method ChooseNextTarget()
      modifies this`activeTarget
      ensures targets == [] ==> activeTarget == old(activeTarget)
      ensures targets != [] ==> activeTarget.Some? && IsNearestFirst(targets, agent, activeTarget.value)
    {
      if |targets| == 0 {
        return;
      }
      activeTarget := ChooseNearest(targets, agent);
    }

    /** captureTarget(activeTarget): +7 points, a sparkle where the target stood, the
        target replaced at the same index by a random one, and a new choice. */
    method CaptureTarget()
      requires Valid()
      modifies this`score, this`sparkles, this`targets, this`activeTarget
      ensures Valid()
      ensures score == old(score) + CaptureReward
      ensures var t := old(activeTarget).value;
        && sparkles == old(sparkles) + [Sparkle(old(targets)[t].x, old(targets)[t].y, 6.0, 1.0)]
        && |targets| == |old(targets)|
        && (forall j :: 0 <= j < |targets| && j != t ==> targets[j] == old(targets)[j])
        && InSpawnArea(targets[t], RespawnPadding)
      ensures IsNearestFirst(targets, agent, activeTarget.value)
    {
      var t := activeTarget.value;
      score := score + CaptureReward;
      sparkles := sparkles + [Sparkle(targets[t].x, targets[t].y, 6.0, 1.0)];
      var p := RandomPoint(RespawnPadding);
      targets := targets[t := p];
      ChooseNextTarget();
    }

    /** update(delta): nothing at all for a zero delta.  Otherwise, with d the
        distance to the chased target: below 10 the target is captured; above 0.1
        the agent steps toward it by the host's step `ratio` (min(speed * delta / d, 1));
        then the trail records the agent and fades by delta * 1.3, and the
        sparkles age.  The chased target changes only on a capture. */
    method Update(delta: real, ratio: real)
      requires Valid()
      modifies this`agent, this`score, this`sparkles, this`targets, this`activeTarget, this`trail
      ensures Valid()
      ensures delta == 0.0 ==>
        && agent == old(agent) && score == old(score) && targets == old(targets)
        && activeTarget == old(activeTarget) && trail == old(trail) && sparkles == old(sparkles)
      ensures delta != 0.0 ==>
        && trail == FadeAll(Newest(old(trail) + [TrailNode(agent.x, agent.y, 1.0)], TrailCap), delta * TrailFadeRate)
        && trail[|trail| - 1].x == agent.x && trail[|trail| - 1].y == agent.y
        && (delta >= 0.0 && LivesInUnit(old(trail)) ==> LivesInUnit(trail))
      ensures delta != 0.0 ==>
        var t := old(targets)[old(activeTarget).value];
        DistSq(old(agent), t) < CaptureDistSq ==>
          && score == old(score) + CaptureReward
          && agent == old(agent)
          && sparkles == AgeSparkles(old(sparkles) + [Sparkle(t.x, t.y, 6.0, 1.0)], delta)
          && (forall j :: 0 <= j < TargetCount && j != old(activeTarget).value ==> targets[j] == old(targets)[j])
          && InSpawnArea(targets[old(activeTarget).value], RespawnPadding)
          && IsNearestFirst(targets, agent, activeTarget.value)
      ensures delta != 0.0 ==>
        var t := old(targets)[old(activeTarget).value];
        DistSq(old(agent), t) >= CaptureDistSq ==>
          && score == old(score)
          && targets == old(targets) && activeTarget == old(activeTarget)
          && sparkles == AgeSparkles(old(sparkles), delta)
          && agent == if DistSq(old(agent), t) > MoveDistSq then MoveToward(old(agent), t, ratio) else old(agent)
    {
      if delta == 0.0 {
        return;
      }
      var target := targets[activeTarget.value];
      var distance := DistSq(agent, target);
      if distance < CaptureDistSq {
        CaptureTarget();
      } else if distance > MoveDistSq {
        agent := MoveToward(agent, target, ratio);
      }
      trail := Record(trail, agent, TrailCap, delta * TrailFadeRate);
      sparkles := FadeSparkles(sparkles, delta);
    }
  }

  /** An agent placed exactly on the chased target captures it on the next tick. */
  method CaptureOnContact(game: SparkRunner, delta: real, ratio: real)
    requires game.Valid() && delta != 0.0
    requires game.agent == game.targets[game.activeTarget.value]
    modifies game
    ensures game.score == old(game.score) + CaptureReward
    ensures |game.targets| == TargetCount
  {
    game.Update(delta, ratio);
  }
}

=== FILE: system_flow.dfy ===
/** SystemFlowSim: four labelled nodes joined by six fixed links, and one packet
    that travels the cycle Signal -> Design -> Build -> Ops -> Signal. */
module SystemFlow {

  const NodeLabels: seq<string> := ["Signal", "Design", "Build", "Ops"]
  const NodeCount := 4
  /** The adjacency list drawn between the nodes (the two diagonals included). */
  const Links: seq<(int, int)> := [(0, 1), (1, 2), (2, 3), (3, 0), (0, 2), (1, 3)]
  /** Progress gained per second. */
  const PacketSpeed := 0.35

  /** The token on its way from node `from` to node `to`, `progress` of the way along. */
  datatype Packet = Packet(from: int, to: int, progress: real)

  const StartPacket := Packet(0, 1, 0.0)

  /** A packet on one of the cycle's links, not yet arrived. */
  ghost predicate OnRoute(p: Packet)
  {
    0 <= p.from < NodeCount && p.to == (p.from + 1) % NodeCount && p.progress < 1.0
  }

  /** Arrival at `to`: it becomes the source, the next node in the cycle becomes the
      destination, and the progress restarts from 0 (any overshoot is dropped). */
  function Hop(p: Packet): (r: Packet)
    requires 0 <= p.to
    ensures r.from == p.to && 0 <= r.to < NodeCount && r.progress == 0.0
    ensures 0 <= p.to < NodeCount ==> OnRoute(r)
  {
    Packet(p.to, (p.to + 1) % NodeCount, 0.0)
  }

  /** The packet after `update(delta)`: a zero delta leaves it alone; otherwise the
      progress grows by delta * 0.35 and, once it reaches 1, the packet hops. */
  function Step(p: Packet, delta: real): (r: Packet)
    requires OnRoute(p)
    ensures OnRoute(r)
    ensures delta == 0.0 ==> r == p
    ensures r.from == p.from || (r.from == p.to && r.progress == 0.0)
    ensures r.from == p.from ==> r.to == p.to && r.progress == p.progress + delta * PacketSpeed
    ensures delta != 0.0 && p.progress + delta * PacketSpeed >= 1.0 ==> r == Hop(p)
    ensures delta >= 0.0 && p.progress >= 0.0 ==> 0.0 <= r.progress < 1.0
  {
    if delta == 0.0 then p
    else
      var moved := p.(progress := p.progress + delta * PacketSpeed);
      if moved.progress >= 1.0 then Hop(moved) else moved
  }

  /** Every route a packet can be on is one of the drawn links. */
  lemma {:induction false} RouteIsLink(p: Packet)
    requires OnRoute(p)
    ensures (p.from, p.to) in Links
  {
    if p.from == 0 {
      assert Links[0] == (0, 1);
    } else if p.from == 1 {
      assert Links[1] == (1, 2);
    } else if p.from == 2 {
      assert Links[2] == (2, 3);
    } else {
      assert Links[3] == (3, 0);
    }
  }

  /** The packet `k` hops after `p`. */
  function Hops(p: Packet, k: nat): (r: Packet)
    requires 0 <= p.to
    ensures 0 <= r.to
    decreases k
  {
    if k == 0 then p else Hops(Hop(p), k - 1)
  }

  /** From the start, the k-th hop leaves the packet between nodes k mod 4 and
      k + 1 mod 4: the cycle is visited in order, none skipped. */
  lemma {:induction false} HopsFromStart(k: nat)
    ensures k > 0 ==> Hops(StartPacket, k) == Packet(k % NodeCount, (k + 1) % NodeCount, 0.0)
  {
    if k > 1 {
      HopsFromStart(k - 1);
      HopsAfter(StartPacket, k - 1);
      assert ((k % NodeCount) + 1) % NodeCount == (k + 1) % NodeCount;
    }
  }

  /** Hopping k times then once more is hopping k + 1 times. */
  lemma {:induction false} HopsAfter(p: Packet, k: nat)
    requires 0 <= p.to
    ensures Hops(p, k + 1) == Hop(Hops(p, k))
    decreases k
  {
    if k > 0 {
      HopsAfter(Hop(p), k - 1);
    }
  }

  /** Three arrivals from the start leave the packet on the Ops -> Signal link. */
  lemma ThreeHopsFromStart()
    ensures Hops(StartPacket, 3) == Packet(3, 0, 0.0)
    ensures NodeLabels[Hops(StartPacket, 3).from] == "Ops" && NodeLabels[Hops(StartPacket, 3).to] == "Signal"
  {
    HopsFromStart(3);
  }

  class SystemFlowSim {
    var time: real
    var packet: Packet

    ghost predicate Valid()
      reads this
    {
      OnRoute(packet) && 0.0 <= packet.progress
    }

    /** The packet starts at Signal, bound for Design, with no progress. */
    constructor ()
      ensures Valid() && time == 0.0 && packet == StartPacket
    {
      time := 0.0;
      packet := StartPacket;
    }

    /** update(delta): a zero delta does nothing; otherwise the clock advances and
        the packet steps.  For a non-negative delta the progress stays in [0, 1). */
    method Update(delta: real)
      requires OnRoute(packet)
      modifies this
      ensures packet == Step(old(packet), delta)
      ensures time == old(time) + delta
      ensures delta >= 0.0 && old(Valid()) ==> Valid()
    {
      if delta == 0.0 {
        return;
      }
      time := time + delta;
      packet := Step(packet, delta);
    }
  }
}

=== FILE: target_selector.dfy ===
/** The nearest-target policy both agent widgets use: an exhaustive scan keeping
    the first candidate whose distance is strictly smaller than the best so far. */
module TargetSelector {
  import opened Common

  /** Index i of ps is a nearest candidate to `from`, and no earlier candidate is
      as near: the choice a strict `<` scan from the front makes. */
  ghost predicate IsNearestFirst(ps: seq<Point>, from: Point, i: int)
  {
    && 0 <= i < |ps|
    && (forall j :: 0 <= j < |ps| ==> DistSq(from, ps[i]) <= DistSq(from, ps[j]))
    && (forall j :: 0 <= j < i ==> DistSq(from, ps[i]) < DistSq(from, ps[j]))
  }

  /** The tie rule leaves no freedom: at most one index is nearest-first. */
  lemma NearestFirstUnique(ps: seq<Point>, from: Point, i: int, k: int)
    requires IsNearestFirst(ps, from, i) && IsNearestFirst(ps, from, k)
    ensures i == k
  {
    assert DistSq(from, ps[i]) == DistSq(from, ps[k]);
  }

  /** The scan of chooseNextTarget: `None` exactly when there is no candidate
      (the source's `null`), otherwise the nearest-first candidate. */
  method ChooseNearest(ps: seq<Point>, from: Point) returns (best: Option<nat>)
    ensures best.None? <==> ps == []
    ensures best.Some? ==> IsNearestFirst(ps, from, best.value)
  {
    best := None;
    var bestDistance := 0.0;
    for i := 0 to |ps|
      invariant best.None? <==> i == 0
      invariant best.Some? ==> best.value < i && bestDistance == DistSq(from, ps[best.value])
      invariant best.Some? ==> forall j :: 0 <= j < i ==> bestDistance <= DistSq(from, ps[j])
      invariant best.Some? ==> forall j :: 0 <= j < best.value ==> bestDistance < DistSq(from, ps[j])
    {
      var distance := DistSq(from, ps[i]);
      if best.None? || distance < bestDistance {
        best, bestDistance := Some(i), distance;
      }
    }
  }
}

=== FILE: trail.dfy ===
/** The fading trail both agent widgets keep behind their agent: a bounded FIFO of
    past positions, each with a life in [0, 1] that only ever decays. */
module Trail {
  import opened Common

  /** One remembered position of the agent and the life that fades it out. */
  datatype TrailNode = TrailNode(x: real, y: real, life: real)

  /** `node.life = Math.max(0, node.life - amount)`. */
  function Fade(n: TrailNode, amount: real): (r: TrailNode)
    ensures r.x == n.x && r.y == n.y
    ensures r.life >= 0.0
    ensures amount >= 0.0 && n.life >= 0.0 ==> r.life <= n.life
    ensures amount >= 0.0 && n.life <= 1.0 ==> r.life <= 1.0
  {
    n.(life := Max(0.0, n.life - amount))
  }

  /** Every node of s faded once by `amount`, in place and in order. */
  function FadeAll(s: seq<TrailNode>, amount: real): seq<TrailNode>
  {
    seq(|s|, i requires 0 <= i < |s| => Fade(s[i], amount))
  }

  /** What remains of s after `while (s.length > cap) s.shift()`: its newest `cap` nodes. */
  function Newest(s: seq<TrailNode>, cap: nat): seq<TrailNode>
  {
    if |s| <= cap then s else s[|s| - cap..]
  }

  ghost predicate LivesInUnit(s: seq<TrailNode>)
  {
    forall i :: 0 <= i < |s| ==> 0.0 <= s[i].life <= 1.0
  }

  /** `while (s.length > cap) s.shift()`. */
  method EvictOldest(s: seq<TrailNode>, cap: nat) returns (r: seq<TrailNode>)
    ensures r == Newest(s, cap)
  {
    r := s;
    while |r| > cap
      invariant r == s[|s| - |r|..]
      invariant |r| >= cap || r == s
      decreases |r|
    {
      r := r[1..];
    }
  }

  /** `s.forEach((node) => { node.life = Math.max(0, node.life - amount); })`. */
  method FadeEach(s: seq<TrailNode>, amount: real) returns (r: seq<TrailNode>)
    ensures r == FadeAll(s, amount)
  {
    r := s;
    var i := 0;
    while i < |r|
      invariant 0 <= i <= |r| == |s|
      invariant forall j :: 0 <= j < i ==> r[j] == Fade(s[j], amount)
      invariant forall j :: i <= j < |r| ==> r[j] == s[j]
    {
      r := r[i := Fade(r[i], amount)];
      i := i + 1;
    }
  }

  /** One tick of a trail with capacity `cap`: push the agent position with life 1,
      evict from the front while over capacity, then fade every node by `amount`.
      The trail never exceeds its capacity, its last node is the agent, every
      older node is the node that was already there faded once more (so, for a
      non-negative amount, no life ever increases), and lives stay in [0, 1]. */
  method Record(trail: seq<TrailNode>, at: Point, cap: nat, amount: real) returns (r: seq<TrailNode>)
    requires cap > 0
    ensures r == FadeAll(Newest(trail + [TrailNode(at.x, at.y, 1.0)], cap), amount)
    ensures 1 <= |r| <= cap
    ensures |r| == if |trail| < cap then |trail| + 1 else cap
    ensures r[|r| - 1] == Fade(TrailNode(at.x, at.y, 1.0), amount)
    ensures forall i :: 0 <= i < |r| - 1 ==> r[i] == Fade(trail[|trail| + 1 - |r| + i], amount)
    ensures forall i :: 0 <= i < |r| ==> r[i].life >= 0.0
    ensures amount >= 0.0 && LivesInUnit(trail) ==> LivesInUnit(r)
  {
    var pushed := trail + [TrailNode(at.x, at.y, 1.0)];
    var kept := EvictOldest(pushed, cap);
    r := FadeEach(kept, amount);
    forall j | 0 <= j < |r| - 1
      ensures r[j] == Fade(trail[|trail| + 1 - |r| + j], amount)
    {
      assert kept[j] == pushed[|pushed| - |r| + j];
    }
  }
}

=== FILE: wizard.dfy ===
/** The multi-step intake wizard: which step is shown, and the delivery window in
    weeks estimated from the chosen service, project stage and priority. */
module Wizard {

  /** clamp(value, min, max) = Math.min(Math.max(value, min), max): the upper bound
      wins when the bounds cross. */
  function Clamp(value: int, lo: int, hi: int): (r: int)
    ensures lo <= hi ==> lo <= r <= hi
    ensures lo <= hi && lo <= value <= hi ==> r == value
    ensures value < lo ==> r == if lo <= hi then lo else hi
    ensures value > hi ==> r == hi
    ensures lo > hi ==> r == hi
  {
    var raised := if value >= lo then value else lo;
    if raised <= hi then raised else hi
  }

  class StepTracker {
    const stepCount: nat
    var currentStep: int

    /** A form with no steps sits on step -1 (the clamp's upper bound wins). */
    ghost predicate Valid()
      reads this
    {
      if stepCount > 0 then 0 <= currentStep < stepCount else currentStep == -1
    }

    /** The wizard opens on its first step (setStep(0) at set-up). */
    constructor (count: nat)
      ensures Valid() && stepCount == count
      ensures count > 0 ==> currentStep == 0
    {
      stepCount := count;
      currentStep := Clamp(0, 0, count - 1);
    }

    /** setStep(index): the shown step is the index clamped to the existing steps. */
    method SetStep(index: int)
      modifies this`currentStep
      ensures Valid()
      ensures currentStep == Clamp(index, 0, stepCount - 1)
      ensures stepCount > 0 && 0 <= index < stepCount ==> currentStep == index
    {
      currentStep := Clamp(index, 0, stepCount - 1);
    }

    /** The Next button: one step on, but never past the last step. */
    method Next()
      requires Valid()
      modifies this`currentStep
      ensures Valid()
      ensures stepCount > 0 && old(currentStep) < stepCount - 1 ==> currentStep == old(currentStep) + 1
      ensures stepCount > 0 && old(currentStep) == stepCount - 1 ==> currentStep == old(currentStep)
    {
      SetStep(currentStep + 1);
    }

    /** The Back button: one step back, but never before the first step. */
    method Previous()
      requires Valid()
      modifies this`currentStep
      ensures Valid()
      ensures stepCount > 0 && old(currentStep) > 0 ==> currentStep == old(currentStep) - 1
      ensures stepCount > 0 && old(currentStep) == 0 ==> currentStep == 0
    {
      SetStep(currentStep - 1);
    }
  }

  /** A delivery window: its first and last week. */
  datatype Weeks = Weeks(min: int, max: int)

  const DefaultWeeks := Weeks(6, 12)

  /** The week range of each named service; any other option value, the empty
      one included, falls back to the default (6, 12). */
  function ServiceWeeks(service: string): (w: Weeks)
    ensures 3 <= w.min < w.max <= 24
  {
    if service == "Full Web App Development" then Weeks(12, 18)
    else if service == "Mobile App Development" then Weeks(10, 16)
    else if service == "Python Automation" then Weeks(4, 8)
    else if service == "MERN Stack Development" then Weeks(8, 14)
    else if service == "Product Strategy & Design" then Weeks(3, 6)
    else if service == "Dedicated Product Team" then Weeks(12, 24)
    else DefaultWeeks
  }

  /** `field?.value || fallback`: an empty answer reads as the fallback. */
  function OrDefault(value: string, fallback: string): (r: string)
    ensures r != "" || fallback == ""
    ensures value != "" ==> r == value
  {
    if value == "" then fallback else value
  }

  /** The shift each answer applies: a "Concept" stage adds a week to the start and
      two to the end, "Growth" removes one from each; "accelerated" priority
      removes two from each, "exploratory" adds two to each. */
  function Adjusted(base: Weeks, stage: string, priority: string): (w: Weeks)
    ensures w.max - w.min == base.max - base.min + (if stage == "Concept" then 1 else 0)
    ensures base.min - 3 <= w.min <= base.min + 3
    ensures base.max - 3 <= w.max <= base.max + 4
  {
    var staged :=
      if stage == "Concept" then Weeks(base.min + 1, base.max + 2)
      else if stage == "Growth" then Weeks(base.min - 1, base.max - 1)
      else base;
    if priority == "accelerated" then Weeks(staged.min - 2, staged.max - 2)
    else if priority == "exploratory" then Weeks(staged.min + 2, staged.max + 2)
    else staged
  }

  /** The final clamp: the first week into [2, 32], the last week at least one past
      the first and at most 40.  All inputs are whole weeks, so the source's
      Math.round calls leave them unchanged. */
  function Bounded(w: Weeks): (r: Weeks)
    ensures 2 <= r.min <= 32 && r.min < r.max <= 40
    ensures 2 <= w.min <= 32 && w.min < w.max <= 40 ==> r == w
    ensures r.min == Clamp(w.min, 2, 32)
  {
    var lo := Clamp(w.min, 2, 32);
    var hi := if w.max >= lo + 1 then w.max else lo + 1;
    Weeks(lo, Clamp(hi, lo + 1, 40))
  }

  /** The timeline half of updateEstimates: the service's range, shifted by the
      stage (default "Concept") and the priority (default "standard"), then
      bounded. */
  function EstimateWeeks(service: string, stage: string, priority: string): (w: Weeks)
    ensures 2 <= w.min <= 32 && w.min < w.max <= 40
  {
    Bounded(Adjusted(ServiceWeeks(service), OrDefault(stage, "Concept"), OrDefault(priority, "standard")))
  }

  /** Only the lower bounds ever bind: no service, stage and priority push the
      window past week 32 or 40, so the clamp can only move a window that starts
      too early (before week 2) or has collapsed, and then only upward. */
  lemma {:induction false} ClampOnlyRaises(service: string, stage: string, priority: string)
    ensures var a := Adjusted(ServiceWeeks(service), OrDefault(stage, "Concept"), OrDefault(priority, "standard"));
      var w := EstimateWeeks(service, stage, priority);
      && w.min == (if a.min < 2 then 2 else a.min)
      && w.max == (if a.max < w.min + 1 then w.min + 1 else a.max)
  {
    var base := ServiceWeeks(service);
    var a := Adjusted(base, OrDefault(stage, "Concept"), OrDefault(priority, "standard"));
    assert a.min <= 15 && a.max <= 28;
  }

  /** The clamp does bind: a strategy engagement in growth stage at accelerated pace
      shifts to weeks 0 to 3, which the estimate reports as weeks 2 to 3. */
  lemma ShortestEstimate()
    ensures Adjusted(ServiceWeeks("Product Strategy & Design"), "Growth", "accelerated") == Weeks(0, 3)
    ensures EstimateWeeks("Product Strategy & Design", "Growth", "accelerated") == Weeks(2, 3)
  {
  }

  /** An empty stage and priority estimate as a concept at standard pace: the
      default service's range (6, 12) becomes weeks 7 to 14. */
  lemma DefaultEstimate()
    ensures EstimateWeeks("", "", "") == Weeks(7, 14)
  {
    assert OrDefault("", "Concept") == "Concept";
    assert OrDefault("", "standard") == "standard";
  }
}
